=== FILE: README.md ===
# Storefront core in Dafny

A model of a small Flask product catalogue backed by SQLite. It has a public
storefront and a password-protected admin area. The model covers:

- the two paginated product lists: the storefront home page and the admin product list;
- the product detail page;
- the admin mutations:
  - adding and renaming a category;
  - adding and editing a product, with multi-image upload;
  - deleting an image, a product or a whole category;
- the text helpers: `allowed_file` and the `nl2br` filter;
- the database layer: `query_db`, the schema's UNIQUE constraints, defaults and declared cascades, and the idempotent creation of the default admin user;
- the older single-file version of the application (`app.py`), in a module of its own.

Modules, one per file:

| module | file | what it holds |
|---|---|---|
| `Common` | common.dfy | `Option`, `Result`, least/greatest elements, sorted id lists |
| `Text` | text.dfy | `str.strip`, ASCII lower-casing, `allowed_file`, `nl2br`, `os.path.basename`, upload URLs |
| `Schema` | schema.dfy | rows, the database state, constraints, cascades, `query_db`, `init_db`'s admin bootstrap |
| `Images` | images.dfy | the product-image table, the "primary image is the lowest-id image" invariant, append and remove |
| `Query` | query.dfy | the WHERE-clause builder, placeholder counting, the count and page queries, page arithmetic |
| `Listing` | listing.dfy | one page of a product list: filter, `ORDER BY p.id DESC`, `LIMIT/OFFSET`, category name, thumbnail |
| `Storefront` | storefront.dfy | `home` and `product_detail` of the public blueprint |
| `Admin` | admin.dfy | `admin_index` and every admin mutation of the admin blueprint |
| `Legacy` | legacy.dfy | `app.py`'s `allowed_file`, `home`, `admin_index`, image edit decision and category delete |

Modelling choices:

- **The state.** A request works on a `Store`, which pairs the database with the set of file names in the upload folder.
- **Faults.** A database failure is a `Fault` parameter: either statement `k` of the handler's `try` block raises, or the commit does. A handler that catches the failure rolls the database back. Files removed before the failure stay removed, and files saved before it stay saved.
- **Foreign keys.** The application never issues `PRAGMA foreign_keys = ON`, so SQLite enforces neither the declared foreign keys nor their `ON DELETE CASCADE`. The database state carries a `foreignKeys` flag. Every delete is modelled for both settings; the deployed setting is "off".
- **The comments table.** The admin category delete issues `DELETE FROM comments`, but `init_db` creates no `comments` table. The database carries `comments: Option<...>`, where `None` means the table is absent. With the deployed schema, deleting a category that still has products therefore always fails after its image files are gone (`Admin.DeleteCategoryNeedsComments`).
- **SQL and LIKE.** SQL is not executed. Each clause is given its SQL text with `?` holes and its meaning on a product row. `LIKE` matching is a parameter `like(value, pattern)`.
- **Pages.** A negative `OFFSET` behaves as 0, as it does in SQLite.
- **The legacy page queries** have no `ORDER BY`. The model takes ascending id order, which is SQLite's table-scan order.
- **No extra checks.** The code has no sort-column allow-list, no page clamping and no price or stock range checks, and neither does the model.

## Model

| member | source | states |
|---|---|---|
| Text.Strip | app/admin/routes.py:128 | the result is the input minus a leading and a trailing run of whitespace, starts and ends with non-space, and is empty exactly when the input is all whitespace |
| Text.StripIdempotent | app/admin/routes.py:74 | stripping an already stripped query or name changes nothing |
| Text.LastIndexOf | app/utils.py:13 | `rsplit('.', 1)` splits at the last dot: the index found holds the dot and no dot follows; none exactly when there is no dot |
| Text.LastDotUnique | app/utils.py:13 | the split point of `rsplit('.', 1)` is unique |
| Text.AllowedFile | app/utils.py:7-13 | a name is allowed exactly when it has a dot and the lower-cased text after its last dot is in the allowed set; no dot or an empty set rejects |
| Text.AllowedByLastExtension | app/utils.py:12-13 | for `stem.ext` with a dot-free extension, only the lower-cased extension decides, whatever the stem holds |
| Text.UpperCaseExtensionAccepted | config.py:30 | `a.PNG` passes the configured image set, because the extension is lower-cased first |
| Text.Lower | app/utils.py:13 | `.lower()` on ASCII: the result has the input's length and keeps no capital `A`-`Z` |
| Text.LowerFolds | app/utils.py:13 | lower-casing folds each character on its own, capitals to small letters and everything else unchanged |
| Text.DoubleExtensionRejected | config.py:30 | `a.png.exe` is rejected: only the last extension counts |
| Text.TrailingDotRejected | app/utils.py:12-13 | `x.` is rejected: the empty extension is not in the set |
| Text.ReplaceNewlines | app/utils.py:21 | no newline is left, and each newline grows the text by three characters |
| Text.Nl2Br | app/utils.py:15-22 | `None` renders as the empty string; otherwise no newline survives, with the length grown by three per newline |
| Text.ReplaceNewlinesConcat | app/utils.py:21 | replacement distributes over concatenation |
| Text.RestoreAfterReplace | app/utils.py:21 | for text without `<`, turning each `<br>` back into a newline gives back the input, so the filter loses nothing |
| Text.Basename | app/admin/routes.py:397 | the basename is the whole text after the last `/`: a slash-free suffix of the path that is either the whole path or preceded by a `/` |
| Text.BasenameOfUploadUrl | app/admin/routes.py:282 | the stored URL `uploads/<name>` leads back to the saved file name `<name>` |
| Text.UploadUrl | app/admin/routes.py:282 | the stored reference is the saved name behind one `/`, the only one, after `uploads`, with no backslash left |
| Schema.QueryDb | app/db.py:28-36 | `one=True` gives the first row or none for an empty result; otherwise all rows |
| Schema.InsertCategory | app/db.py:46-49 | the INSERT fails exactly when the name is taken (UNIQUE); otherwise it adds the name at a fresh id and keeps names unique |
| Schema.RenameCategoryRow | app/db.py:46-49 | the UPDATE fails exactly when another category has the name; an unknown id changes nothing |
| Schema.ProductsIn | app/db.py:58-59 | exactly the products whose category reference is the given id |
| Schema.DeleteProductRows | app/db.py:62-69 | the products go; the image rows of products that existed go exactly when foreign keys are enforced; consistency is kept |
| Schema.DeleteCategoryRow | app/db.py:51-60 | the category goes; its products and their images cascade only when foreign keys are enforced and the category row existed |
| Schema.DeclaredCascades | app/db.py:51-69 | with enforcement on, deleting an existing category leaves none of its products or their images; with it off, both stay |
| Schema.InsertProduct | app/db.py:51-60 | the product gets the next id; with enforcement on, a dangling category reference is refused |
| Schema.UpdateProductRow | app/db.py:51-60 | the row is replaced in place; with enforcement on, a dangling category reference is refused |
| Schema.NewImageRow | app/db.py:62-69 | a new image row has sort order 0 and is primary only when the flag was given as true |
| Schema.InitAdmin | app/db.py:78-89 | afterwards an `admin` user exists; if one existed nothing changes |
| Schema.InitAdminIdempotent | app/db.py:78-89 | running the bootstrap any number of times equals running it once, and exactly one `admin` user exists |
| Images.FirstImage | app/admin/routes.py:101 | the lowest id among the product's image rows, none exactly when it has no images |
| Images.Thumbnail | app/main/routes.py:42 | the thumbnail is the URL of the product's lowest-id image, and is absent exactly when it has none |
| Images.ExactlyOnePrimary | app/admin/routes.py:269-286 | under the primary-image invariant, a product with images has exactly one primary image |
| Images.ThumbnailIsPrimary | app/main/routes.py:42 | under the invariant, the lowest-id image the list shows is the product's primary image |
| Images.AppendImages | app/admin/routes.py:271-286 | new rows take consecutive fresh ids in upload order, only the first may be primary, and old rows are untouched |
| Images.InsertKeepsPrimaryIsFirst | app/admin/routes.py:332-347 | inserting a row above every id, primary exactly when its product had no image, keeps the invariant |
| Images.AppendKeepsPrimaryIsFirst | app/admin/routes.py:332-347 | appending uploads keeps the invariant when the first is primary exactly if the product had no images |
| Images.RemoveImage | app/admin/routes.py:404-410 | removing a primary image makes the product's lowest-id remaining image primary; the only row that changes is that one, and only its primary flag |
| Images.RemoveKeepsPrimaryIsFirst | app/admin/routes.py:404-410 | removing one image with re-election keeps the invariant |
| Images.KeepWholeProducts | app/db.py:68 | dropping whole products' image groups keeps the invariant |
| Query.WhereSqlEmpty | app/admin/routes.py:88 | the WHERE fragment is empty exactly when there are no clauses |
| Query.JoinHoles | app/admin/routes.py:88 | the clauses joined by `AND` have as many holes as their parameters |
| Query.WherePlaceholders | app/admin/routes.py:77-88 | the `?` count of the WHERE text equals the number of parameters the builder collected |
| Query.TotalPages | app/admin/routes.py:93 | `ceil(total / perPage)`: zero exactly for no rows, otherwise the last page holds between 1 and perPage rows |
| Query.PagePlaceholders | app/admin/routes.py:97-107 | the page query has two placeholders more than the count query |
| Query.MakePlan | app/admin/routes.py:88-109 | both queries share the filter's WHERE fragment and the count query binds exactly the filter's parameters; both have as many placeholders as parameters, and the page parameters are the count parameters followed by `[perPage, (page-1)*perPage]` |
| Query.AddIf | app/admin/routes.py:80-86 | a guarded append adds the clause and its parameters when the guard holds and changes nothing otherwise |
| Query.AddIfMeaning | app/admin/routes.py:80-86 | the extended filter selects exactly the rows the old one selects that also satisfy the new clause when it was added |
| Query.EvalSnoc | app/admin/routes.py:88 | the `AND` of the clauses extended by one is the old conjunction and the new clause |
| Query.LikePattern | app/admin/routes.py:86 | the pattern is the query wrapped in `%` on both sides |
| Query.Window | app/admin/routes.py:105-106 | `LIMIT n OFFSET o` keeps at most n rows, the rows from `max(o, 0)` on, in order |
| Query.WindowSlice | app/admin/routes.py:105-106 | the window is the slice of rows from the offset, clipped to the end |
| Query.PagesCoverRows | app/admin/routes.py:93-106 | pages 1 to `total_pages` together list every row once, in order, and any later page is empty |
| Query.WindowFind | app/admin/routes.py:93-106 | every row lies on a page between 1 and `total_pages`, at position `j - offset` |
| Query.NonPositivePageShowsFirst | app/admin/routes.py:95 | a page number of 0 or below gives a negative offset, which shows the first page |
| Query.Offset | app/admin/routes.py:95 | `(page - 1) * per_page` is never negative for page 1 or later |
| Query.NonPositiveOffset | app/main/routes.py:36 | a page number of 1 or below gives an offset of 0 or less |
| Listing.CategoryName | app/admin/routes.py:100-103 | the LEFT JOIN yields the category's name when the reference resolves and NULL otherwise, never dropping a product |
| Listing.Selected | app/admin/routes.py:104 | exactly the products the WHERE fragment keeps |
| Listing.RowsDescending | app/admin/routes.py:105 | every selected product exactly once, in strictly descending id order |
| Listing.ListPage | app/admin/routes.py:90-110 | at most perPage rows, all selected, in descending id order; the count and page count are those of the selection |
| Listing.ListPagesCover | app/admin/routes.py:90-110 | walking the pages lists the whole selection; pages past the count are empty |
| Listing.ListPageFind | app/admin/routes.py:90-110 | each selected product appears on some page within the page count |
| Listing.ListThumbnailsArePrimary | app/admin/routes.py:101 | under the invariant, each listed thumbnail is the product's primary image, absent exactly when it has no images |
| Storefront.HomeFilterShape | app/main/routes.py:18-29 | the home filter always has the stock clause, a category clause only for a non-zero id, and a name-LIKE clause only for a non-empty stripped search |
| Storefront.HomeFilter | app/main/routes.py:18-29 | the home builder collects one parameter per placeholder, adds the category condition exactly for a truthy id (so `0` filters nothing) and the name search exactly for a non-empty stripped text |
| Storefront.HomeWhereNeverEmpty | app/main/routes.py:18-29 | because of the stock clause, the home queries always carry a WHERE fragment |
| Storefront.HomeFilterMeaning | app/main/routes.py:18-27 | the home filter keeps exactly products with non-negative stock, the category for a non-zero id, and a name matching `%q%` |
| Storefront.Home | app/main/routes.py:13-51 | 12 products per page, every one matching the request, newest first, with page parameters extending the count parameters |
| Storefront.HomeIsListPage | app/main/routes.py:31-51 | the home page is the generic list page for its filter |
| Storefront.HomeListsEveryMatch | app/main/routes.py:31-51 | every matching product appears on some page within `total_pages` |
| Storefront.SortForDetail | app/main/routes.py:107 | the result is a permutation of the input in detail order: primary first, then ascending sort order; the sort is stable, so ids given in ascending order stay ascending among tied images |
| Storefront.DetailImageIds | app/main/routes.py:107 | each of the product's images appears exactly once, in detail order, with tied images in ascending id order |
| Storefront.ProductDetail | app/main/routes.py:96-110 | a page exists exactly when the product exists and its category resolves (inner JOIN); its images are the product's, in detail order |
| Storefront.DetailStartsWithThumbnail | app/main/routes.py:107 | under the invariant, the first detail image is the list thumbnail, and there is none exactly when the product has no images |
| Admin.AdminFilterShape | app/admin/routes.py:77-88 | a category clause only for a non-zero id, and a name-or-description LIKE with two `%q%` parameters only for a non-empty stripped query |
| Admin.AdminFilter | app/admin/routes.py:77-88 | the admin builder collects one parameter per placeholder, adds the category condition exactly for a truthy id and the name-or-description search exactly for a non-empty stripped query |
| Admin.AdminFilterMeaning | app/admin/routes.py:80-86 | the admin filter keeps exactly products in the category (non-zero id) whose name or description matches |
| Admin.AdminIndex | app/admin/routes.py:72-110 | 10 products per page, every one matching, newest first, with page parameters extending the count parameters |
| Admin.AdminIndexIsListPage | app/admin/routes.py:90-110 | the admin page is the generic list page for its filter |
| Admin.AdminListsEveryMatch | app/admin/routes.py:90-110 | every matching product appears on some admin page within `total_pages` |
| Admin.CreateCategory | app/admin/routes.py:127-151 | empty stripped names and taken names are refused with no change; otherwise the stripped name is added at a fresh id unless the database fails, and nothing else in the database changes but the category counter; names stay unique |
| Admin.CreateCategoryTwice | app/admin/routes.py:134-137 | after a successful add, adding the same stripped name is refused as existing |
| Admin.RenameCategory | app/admin/routes.py:162-182 | an empty name or one used by another category is refused; otherwise only that category's name changes; an unknown id succeeds without change |
| Admin.RenameToOwnName | app/admin/routes.py:168 | renaming a category to its own name succeeds and changes nothing |
| Admin.SavedNames | app/admin/routes.py:270-279 | one saved name per accepted upload, in upload order: the name of accepted part `i` sits at the number of accepted parts before it, and nothing else is saved |
| Admin.ConsKeptOrder | app/admin/routes.py:270-279 | the first part, when accepted, takes position 0 and shifts every later saved name by one |
| Admin.NoFilenameNothingSaved | app/admin/routes.py:332 | when no upload has a file name, nothing is saved |
| Admin.UrlsOf | app/admin/routes.py:282 | each stored URL is `uploads/` plus its saved file name, and leads back to that name |
| Admin.AppendImagesAppended | app/admin/routes.py:284-286 | the inserted rows point at the product, each stores `uploads/` plus its saved name, only the first can be primary, and the existing rows are untouched |
| Admin.AddImages | app/admin/routes.py:284-286 | the image rows and the id counter are all that change |
| Admin.AddImagesKeepsValid | app/admin/routes.py:332-347 | appending uploads keeps consistency and the primary-image invariant |
| Admin.AcceptedMeaning | app/admin/routes.py:271 | a file part is taken exactly when its name has a last dot and the lower-cased text after it is png, jpg, jpeg or gif; the empty-name test adds nothing |
| Admin.AddProduct | app/admin/routes.py:251-295 | missing or unparsable fields are refused; success exactly when the category reference holds and no statement or the commit fails; on success a new product with its uploads, the first primary, and nothing else changes but the two counters; on failure the database is unchanged but files saved so far remain |
| Admin.AddProductKeepsValid | app/admin/routes.py:264-290 | adding a product keeps consistency and the invariant |
| Admin.EditedRow | app/admin/routes.py:319-327 | name and description are stripped, absent price or stock keeps the stored value, `image_url` is untouched |
| Admin.EditProduct | app/admin/routes.py:307-365 | an unknown product is not found; an unparsable price or stock is refused; on success the row is updated and the uploads appended, the first primary exactly when the product had no images, and nothing else changes but the image counter |
| Admin.EditProductKeepsValid | app/admin/routes.py:332-349 | editing a product keeps consistency and the invariant |
| Admin.DeleteImage | app/admin/routes.py:384-419 | an unknown id changes nothing; otherwise the file is removed whatever happens next; on success only that row goes, and the one other change is that a deleted primary hands the flag to the product's lowest-id remaining image |
| Admin.DeleteImageKeepsValid | app/admin/routes.py:403-412 | deleting an image, with re-election of the primary, keeps consistency and the invariant |
| Admin.ImageFiles | app/admin/routes.py:431-440 | the file names of all image rows of the given products |
| Admin.DeleteProduct | app/admin/routes.py:428-451 | the product's files are removed first; on success the product row goes, its image rows go only if foreign keys are enforced and the product row existed, and nothing else changes |
| Admin.DeleteProductKeepsValid | app/admin/routes.py:442-444 | deleting a product keeps consistency and the invariant |
| Admin.DeleteOwnedRows | app/admin/routes.py:217-224 | the image rows, comments and products of the given products go, and nothing else changes |
| Admin.DeleteCategory | app/admin/routes.py:190-242 | on success the category, its products, their images and their comments are gone and every other row is kept; any failure leaves the database as it was; files are removed once the image query ran, even when a later statement fails |
| Admin.DropFullCategory | app/admin/routes.py:216-226 | deleting the image rows, comments and products of the category, then the category itself, removes exactly the category, its products, their image rows and their comments, with or without enforced foreign keys |
| Admin.DropEmptyCategory | app/admin/routes.py:225-226 | a category without products goes by its own DELETE and nothing else changes |
| Admin.DeleteCategoryNeedsComments | app/admin/routes.py:220-221 | without a `comments` table, deleting a non-empty category always fails, after its image files are removed |
| Admin.DeleteCategoryKeepsValid | app/admin/routes.py:190-242 | deleting a category keeps consistency and the invariant |
| Admin.AddThenDeleteImage | app/admin/routes.py:275-282 | the file an upload saved is in the folder after the add, and deleting that image removes exactly it |
| Legacy.LegacyAllowedFile | app.py:50-52 | a name is allowed exactly when the lower-cased text after its last dot is png, jpg, jpeg or gif |
| Legacy.LegacyAllowedFileAgrees | app.py:50-52 | the legacy check and the blueprint check with the configured set agree on every name |
| Legacy.LegacyList | app.py:94-103 | the count is the number of selected products, the page count its ceiling over perPage, and the ids are exactly the window at `(page - 1) * perPage` of the selected ids in ascending order |
| Legacy.LegacyListPagesCover | app.py:80-103 | pages `1..totalPages` together list every selected id once, in ascending order, and any later page is empty |
| Legacy.LegacyListFind | app.py:80-103 | the `j`-th selected id is on a page within the page count, at the position its index gives |
| Legacy.LegacyListHasEveryMatch | app.py:80-103 | every selected product is on some page within the page count |
| Legacy.LegacyHomeFilterMeaning | app.py:86-91 | a present category id, 0 included, filters on equality; the WHERE text is empty exactly without one |
| Legacy.LegacyHomeFilter | app.py:86-91 | the legacy home builder collects one parameter per placeholder and adds the unqualified category condition exactly when an id is given, `0` included |
| Legacy.CategoryZeroDiffers | app.py:89 | for category id 0 the legacy page filters while the blueprint page does not |
| Legacy.LegacyHome | app.py:75-114 | 9 products per page; the count is the number of products in the requested category (all products without one), and the page is the window of those ids in ascending order; the page parameters extend the count parameters |
| Legacy.LegacyHomeSelected | app.py:86-98 | the legacy home condition selects exactly the products of the requested category, 0 included |
| Legacy.LegacyHomeIsList | app.py:75-103 | the legacy home page is the legacy list of its condition with 9 per page |
| Legacy.LegacyHomeListsEveryMatch | app.py:75-103 | every product of the requested category appears on some page within the page count |
| Legacy.LegacyAdminFilterMeaning | app.py:166-180 | a present category id filters on equality, a non-empty stripped query matches name or description, and the WHERE text is empty exactly without either |
| Legacy.LegacyAdminFilter | app.py:166-180 | the legacy admin builder collects one parameter per placeholder, adds the category condition whenever an id is given and the name-or-description search exactly for a non-empty stripped query |
| Legacy.LegacyAdminIndex | app.py:155-208 | 10 products per page; the count is the number of products matching the present category and the stripped query, and the page is the window of those ids in ascending order; the page parameters extend the count parameters |
| Legacy.LegacyAdminSelected | app.py:166-184 | the legacy admin condition selects exactly the products matching the present category and the stripped query |
| Legacy.LegacyAdminIsList | app.py:155-198 | the legacy admin page is the legacy list of its condition with 10 per page |
| Legacy.LegacyAdminListsEveryMatch | app.py:155-198 | every matching product appears on some page within the page count |
| Legacy.StaticPathOfUploadUrl | app.py:316-320 | the stored URL of an upload, under `static/`, is the path the file was saved to |
| Legacy.EditImage | app.py:297-333 | a valid upload wins: it is saved, the URL points at it and the old file is removed, and no other file is added or removed; otherwise a set delete flag with an existing image removes the file and clears the URL; otherwise nothing changes |
| Legacy.EditImageKeepsReference | app.py:297-333 | if the product's image file existed before, its image URL still names an existing file afterwards |
| Legacy.CategoryImagePaths | app.py:231-240 | exactly the `static/` paths of the category's products that have an image URL |
| Legacy.LegacyDeleteCategory | app.py:227-249 | the image files are removed first; after the commit, the category and its products are gone, with their image rows only if foreign keys are enforced, and nothing else changes; a failing statement leaves the database unchanged |
| Legacy.LegacyDeleteLeavesOrphans | app.py:243 | without enforced foreign keys, the image rows of deleted products stay behind and point at missing products |

## Left out

- Flask plumbing is not modelled: routing, sessions, `login_required`, flash messages, redirects and templates.
- The login, logout and contact handlers and the e-mail sending in `app/utils.py` are not modelled.
- The application factory, configuration loading, connection caching (`get_db`, `close_db`) and the CLI command are not modelled.
- `app/__init__.py` and the JavaScript in `static/js` are not modelled.
- SQL execution and `LIKE` matching are replaced by each clause's stated meaning and a `like` parameter.
- The category lists that the pages render (`SELECT * FROM categories ORDER BY name`) are not modelled; they do not affect any result.
- The filesystem is a set of file names, and saving and removing are set operations. `os.path.exists` guards and `OSError` on removal are not modelled.
- `uuid4` and `secure_filename` become each upload's given stored name. The model requires these names to contain no `/` or `\`; this holds for `secure_filename` output.
- Admin.AddProduct: does not model `float()` and `int()` parsing. A field is given, missing or malformed. Because `request.form[...]` raises before the `try`, a missing field is reported like a malformed one.
- Price and stock have no range check, in the code or in the model.
- Query.TotalPages: uses exact integer ceiling. Python's float division could round differently for counts beyond 2^53.
- Text.Lower: folds only the ASCII capitals `A`-`Z`, whereas Python's `str.lower` folds every cased Unicode letter. With the configured image extensions, which are plain ASCII, acceptance is the same. But Text.AllowedFile takes any `allowed` set, and for one holding non-ASCII extensions the model could reject a name that Python accepts.
- Storefront.Home, Admin.AdminIndex, Legacy.LegacyList: integers are unbounded. Python's `sqlite3` binding raises `OverflowError` for a parameter outside the signed 64-bit range. A `page` such as 10**19 makes the offset `(page - 1) * per_page` too wide, and so does a huge `category_id`. The error is raised outside any `try`, so the request fails, where the model returns an empty page.
- Admin.AddProduct, Admin.EditProduct: a `file.save` that raises `OSError` (app/admin/routes.py:277-278, 340-341) is not modelled. In the code it is caught by the `try`, rolls back, and leaves the files saved before it. The fault model covers only failing statements and the commit.
- Request arguments that fail `type=int` arrive as absent (`None`), which the `Option` parameters already cover.
- Storefront.ProductDetail: images with equal primary flag and sort order are ordered by id. SQLite leaves such ties unspecified.
- The `query_db` reads outside the `try` blocks are assumed not to fail. Examples are the product lookup in edit and the image lookups in the image and product deletes.
- Concurrent requests are not modelled, so the `IntegrityError` race branch of category creation is not modelled.
- The legacy page queries have no `ORDER BY`. `Legacy.LegacyList` assumes SQLite's rowid scan order.
- The legacy `add_product`, `product_detail` and login handlers are not modelled; they read and write the same tables as their blueprint counterparts, with the single `image_url` column in place of image rows.
- The legacy `admin_categories` insert (app.py:213-219) is not modelled. Unlike the blueprint version, it does not strip the name, has no empty-name or duplicate check and no `try`, so a duplicate name raises out of the handler.
- The legacy product delete (app.py:351-360) is not modelled. Unlike the blueprint version, it removes only the one file `static/<image_url>` of the product row before deleting the row.
- In the legacy edit (app.py:283-343), only the image decision is modelled. Its UPDATE differs from the blueprint one: every form field is required (`request.form[...]`, `float()` and `int()` raise otherwise), nothing is stripped, and it also writes `image_url`.
- The `role` column and the `comments` table do not exist in the schema `init_db` creates. The comments table is an optional part of the state; roles are not modelled.

=== FILE: admin.dfy ===
/** The admin blueprint (app/admin/routes.py): the product list with its
    category filter and name-or-description search, and the catalog
    mutations. A mutation takes the store (database plus the names of the
    files in the upload folder) and returns the new store with the outcome
    its flash message reports. The database part is all-or-nothing, since
    every handler commits or rolls back; removing files is not undone. */
module Admin {
  import opened Common
  import opened Schema
  import opened Images
  import opened Query
  import opened Listing
  import Text

  // ---------------------------------------------------------------- listing

  /** `per_page` of the admin list. */
  const AdminPerPage: nat := 10

  /** The WHERE builder of `admin_index` (app/admin/routes.py:77-86): the
      category when `category_id` is truthy, then a name-or-description
      search on the stripped `query`, whose `%q%` pattern is bound twice. */
  function AdminFilter(categoryId: Option<int>, rawQuery: string): (r: Filter)
    ensures WellFormed(r)
    ensures CategoryIs in r.clauses <==> Truthy(categoryId)
    ensures NameOrDescriptionLike in r.clauses <==> Text.Strip(rawQuery) != ""
  {
    SearchFilter(categoryId, Text.Strip(rawQuery))
  }

  /** The admin filter for an already stripped search text `q`. */
  function SearchFilter(categoryId: Option<int>, q: string): (r: Filter)
    ensures WellFormed(r)
    ensures CategoryIs in r.clauses <==> Truthy(categoryId)
    ensures NameOrDescriptionLike in r.clauses <==> q != ""
  {
    var f1 := AddIf(NoFilter, Truthy(categoryId), CategoryIs, if Truthy(categoryId) then [IntParam(categoryId.value)] else []);
    TotalAritySnoc([], CategoryIs);
    TotalAritySnoc(f1.clauses, NameOrDescriptionLike);
    AddIf(f1, q != "", NameOrDescriptionLike, [TextParam(LikePattern(q)), TextParam(LikePattern(q))])
  }

  /** What `admin_index` selects, stated without clauses. */
  predicate AdminWants(categoryId: Option<int>, rawQuery: string, p: Product, like: (string, string) -> bool) {
    var q := Text.Strip(rawQuery);
    && (Truthy(categoryId) ==> p.categoryId == Some(categoryId.value))
    && (q != "" ==> like(p.name, LikePattern(q)) || (p.description.Some? && like(p.description.value, LikePattern(q))))
  }

  /** The shape of the admin filter: the
      category condition and its parameter appear exactly when `category_id`
      is truthy (so `0` filters nothing); a non-empty search adds one
      condition with two equal `%q%` parameters; the fragment is empty
      exactly when neither was added. */
  lemma AdminFilterShape(categoryId: Option<int>, rawQuery: string)
    ensures var f := AdminFilter(categoryId, rawQuery);
      var q := Text.Strip(rawQuery);
      && WellFormed(f)
      && (Render(WhereSql(f.clauses)) == "" <==> !Truthy(categoryId) && q == "")
      && (CategoryIs in f.clauses <==> Truthy(categoryId))
      && (NameOrDescriptionLike in f.clauses <==> q != "")
      && |f.params| == (if Truthy(categoryId) then 1 else 0) + (if q != "" then 2 else 0)
      && (Truthy(categoryId) ==> f.params[0] == IntParam(categoryId.value))
      && (q != "" ==> f.params[|f.params| - 2] == f.params[|f.params| - 1] == TextParam(LikePattern(q)))
  {
    SearchFilterShape(categoryId, Text.Strip(rawQuery));
  }

  lemma SearchFilterShape(categoryId: Option<int>, q: string)
    ensures var f := SearchFilter(categoryId, q);
      && (Render(WhereSql(f.clauses)) == "" <==> !Truthy(categoryId) && q == "")
      && (CategoryIs in f.clauses <==> Truthy(categoryId))
      && (NameOrDescriptionLike in f.clauses <==> q != "")
      && |f.params| == (if Truthy(categoryId) then 1 else 0) + (if q != "" then 2 else 0)
      && (Truthy(categoryId) ==> f.params[0] == IntParam(categoryId.value))
      && (q != "" ==> f.params[|f.params| - 2] == f.params[|f.params| - 1] == TextParam(LikePattern(q)))
  {
    var f := SearchFilter(categoryId, q);
    var t := TextParam(LikePattern(q));
    if Truthy(categoryId) {
      var c := IntParam(categoryId.value);
      if q != "" {
        assert f == Filter([CategoryIs, NameOrDescriptionLike], [c, t, t]);
      } else {
        assert f == Filter([CategoryIs], [c]);
      }
    } else {
      if q != "" {
        assert f == Filter([NameOrDescriptionLike], [t, t]);
      } else {
        assert f == Filter([], []);
      }
    }
    WhereSqlEmpty(f.clauses);
  }

  /** The admin filter selects exactly the products `AdminWants`. */
  lemma AdminFilterMeaning(categoryId: Option<int>, rawQuery: string, p: Product, like: (string, string) -> bool)
    ensures WellFormed(AdminFilter(categoryId, rawQuery))
    ensures Selects(AdminFilter(categoryId, rawQuery), p, like) <==> AdminWants(categoryId, rawQuery, p, like)
  {
    var q := Text.Strip(rawQuery);
    var args1 := if Truthy(categoryId) then [IntParam(categoryId.value)] else [];
    assert WellFormed(NoFilter);
    AddIfMeaning(NoFilter, Truthy(categoryId), CategoryIs, args1, p, like);
    var f1 := AddIf(NoFilter, Truthy(categoryId), CategoryIs, args1);
    AddIfMeaning(f1, q != "", NameOrDescriptionLike, [TextParam(LikePattern(q)), TextParam(LikePattern(q))], p, like);
  }

  /** The admin product list (app/admin/routes.py:72-110): a page of 10 rows
      of the products `AdminWants`, newest first, and the page count. */
  function AdminIndex(db: Db, categoryId: Option<int>, rawQuery: string, page: int, like: (string, string) -> bool): (v: View)
    ensures v.totalPages == TotalPages(v.totalProducts, AdminPerPage)
    ensures |v.rows| <= AdminPerPage
    ensures forall i :: 0 <= i < |v.rows| ==>
      && v.rows[i].id in db.products
      && v.rows[i] == RowOf(db, v.rows[i].id)
      && AdminWants(categoryId, rawQuery, db.products[v.rows[i].id], like)
    ensures forall i, j :: 0 <= i < j < |v.rows| ==> v.rows[i].id > v.rows[j].id
    ensures v.plan.pageParams == v.plan.countParams + [IntParam(AdminPerPage), IntParam(Offset(page, AdminPerPage))]
  {
    var f := AdminFilter(categoryId, rawQuery);
    var v := ListPage(db, f, like, AdminPerPage, page);
    forall i | 0 <= i < |v.rows|
      ensures AdminWants(categoryId, rawQuery, db.products[v.rows[i].id], like)
    {
      AdminFilterMeaning(categoryId, rawQuery, db.products[v.rows[i].id], like);
    }
    assert v.plan.pageParams == v.plan.pageParams[..|v.plan.countParams|] + v.plan.pageParams[|v.plan.countParams|..];
    v
  }

  lemma AdminIndexIsListPage(db: Db, categoryId: Option<int>, rawQuery: string, page: int, like: (string, string) -> bool)
    ensures WellFormed(AdminFilter(categoryId, rawQuery))
    ensures AdminIndex(db, categoryId, rawQuery, page, like) == ListPage(db, AdminFilter(categoryId, rawQuery), like, AdminPerPage, page)
  {
  }

  /** Every product `AdminWants` is on some page between 1 and the page count. */
  lemma AdminListsEveryMatch(db: Db, categoryId: Option<int>, rawQuery: string, like: (string, string) -> bool, id: Id)
    requires id in db.products && AdminWants(categoryId, rawQuery, db.products[id], like)
    ensures exists page ::
      (1 <= page <= AdminIndex(db, categoryId, rawQuery, page, like).totalPages
       && exists i :: 0 <= i < |AdminIndex(db, categoryId, rawQuery, page, like).rows|
                      && AdminIndex(db, categoryId, rawQuery, page, like).rows[i].id == id)
  {
    var f := AdminFilter(categoryId, rawQuery);
    AdminFilterMeaning(categoryId, rawQuery, db.products[id], like);
    var all := Ordered(db, f, like);
    assert id in Selected(db, f, like);
    var j :| 0 <= j < |all| && all[j].id == id;
    var page, i := ListPageFind(db, f, like, AdminPerPage, j);
    AdminIndexIsListPage(db, categoryId, rawQuery, page, like);
    var v := AdminIndex(db, categoryId, rawQuery, page, like);
    assert 1 <= page <= v.totalPages && 0 <= i < |v.rows| && v.rows[i].id == id;
  }

  // ---------------------------------------------------------------- store

  /** What the handler reports. */
  datatype Status = Done | NotFound | EmptyName | NameExists | BadInput | Failed

  /** A database failure during a request: statement `k` of those the
      handler issues inside its `try` block (counted from 0) raises, or the
      final commit does. A statement the handler never reaches cannot fail. */
  datatype Fault = NoFault | StatementFails(k: nat) | CommitFails

  /** The fault hits a transaction that issues `issued` statements. */
  predicate Strikes(fault: Fault, issued: nat) {
    fault.CommitFails? || (fault.StatementFails? && fault.k < issued)
  }

  /** The database and the names of the files in the upload folder. */
  datatype Store = Store(db: Db, files: set<string>)

  datatype Outcome = Outcome(store: Store, status: Status)

  /** The state every admin mutation keeps. */
  predicate Valid(db: Db) {
    Consistent(db) && PrimaryIsFirst(db.images)
  }

  // ---------------------------------------------------------------- categories

  /** Adding a category (app/admin/routes.py:127-151): the stripped name must
      be non-empty and unused; the INSERT is its one statement. */
  function CreateCategory(s: Store, rawName: string, fault: Fault): (r: Outcome)
    ensures r.status == EmptyName <==> Text.Strip(rawName) == ""
    ensures r.status == NameExists <==> Text.Strip(rawName) != "" && NameTaken(s.db.categories, Text.Strip(rawName), None)
    ensures r.status == Done <==>
      Text.Strip(rawName) != "" && !NameTaken(s.db.categories, Text.Strip(rawName), None) && !Strikes(fault, 1)
    ensures r.status != Done ==> r.store == s
    ensures r.status == Done ==>
      && r.store.files == s.files
      && r.store.db.products == s.db.products && r.store.db.images == s.db.images
      && r.store.db == s.db.(categories := r.store.db.categories, nextCategory := s.db.nextCategory + 1)
      && r.store.db.categories.Keys == s.db.categories.Keys + {s.db.nextCategory}
      && r.store.db.categories[s.db.nextCategory] == Category(Text.Strip(rawName))
      && (forall k :: k in s.db.categories && k != s.db.nextCategory ==> r.store.db.categories[k] == s.db.categories[k])
    ensures Valid(s.db) ==> Valid(r.store.db)
  {
    var name := Text.Strip(rawName);
    if name == "" then Outcome(s, EmptyName)
    else if NameTaken(s.db.categories, name, None) then Outcome(s, NameExists)
    else if Strikes(fault, 1) then Outcome(s, Failed)
    else
      match InsertCategory(s.db, name)
      case Err(_) => Outcome(s, Failed)
      case Ok((db, _)) => Outcome(Store(db, s.files), Done)
  }

  /** Once a name is added, adding it again is refused. */
  lemma CreateCategoryTwice(s: Store, rawName: string, again: string, fault: Fault)
    requires CreateCategory(s, rawName, fault).status == Done
    requires Text.Strip(again) == Text.Strip(rawName)
    ensures CreateCategory(CreateCategory(s, rawName, fault).store, again, fault).status == NameExists
  {
    var db := CreateCategory(s, rawName, fault).store.db;
    assert db.categories[s.db.nextCategory].name == Text.Strip(again);
  }

  /** Renaming a category (app/admin/routes.py:162-182): the stripped name
      must be non-empty and not held by a different id; the UPDATE is its
      one statement, and it changes nothing when the id does not exist. */
  function RenameCategory(s: Store, id: Id, rawName: string, fault: Fault): (r: Outcome)
    ensures r.status == EmptyName <==> Text.Strip(rawName) == ""
    ensures r.status == NameExists <==> Text.Strip(rawName) != "" && NameTaken(s.db.categories, Text.Strip(rawName), Some(id))
    ensures r.status == Done <==>
      Text.Strip(rawName) != "" && !NameTaken(s.db.categories, Text.Strip(rawName), Some(id)) && !Strikes(fault, 1)
    ensures r.status != Done ==> r.store == s
    ensures r.status == Done && id !in s.db.categories ==> r.store == s
    ensures r.status == Done && id in s.db.categories ==>
      r.store == Store(s.db.(categories := s.db.categories[id := Category(Text.Strip(rawName))]), s.files)
    ensures Valid(s.db) ==> Valid(r.store.db)
  {
    var name := Text.Strip(rawName);
    if name == "" then Outcome(s, EmptyName)
    else if NameTaken(s.db.categories, name, Some(id)) then Outcome(s, NameExists)
    else if Strikes(fault, 1) then Outcome(s, Failed)
    else
      match RenameCategoryRow(s.db, id, name)
      case Err(_) => Outcome(s, Failed)
      case Ok(db) => Outcome(Store(db, s.files), Done)
  }

  /** Renaming a category to the name it already has is accepted and
      changes nothing, because the name check excludes the category's own id. */
  lemma RenameToOwnName(s: Store, id: Id, rawName: string)
    requires Valid(s.db)
    requires id in s.db.categories && s.db.categories[id].name == Text.Strip(rawName)
    requires Text.Strip(rawName) != ""
    ensures RenameCategory(s, id, rawName, NoFault) == Outcome(s, Done)
  {
    assert !NameTaken(s.db.categories, Text.Strip(rawName), Some(id));
    assert s.db.categories[id := Category(Text.Strip(rawName))] == s.db.categories;
  }

  // ---------------------------------------------------------------- uploads

  /** One part of the multi-file `images` field: the client's file name, and
      the name `uuid4().hex + "_" + secure_filename(filename)` under which the
      handler would save it, which the model takes as given. */
  datatype Upload = Upload(filename: string, storedName: string)

  /** `if file and allowed_file(file.filename)`: a file part is truthy when it
      carries a file name. */
  predicate Accepted(u: Upload) {
    u.filename != "" && Text.AllowedFile(u.filename, Text.ImageExtensions)
  }

  /** A part is taken exactly when the lower-cased text after the last dot of
      its name is an image extension; the empty-name test adds nothing. */
  lemma AcceptedMeaning(u: Upload)
    ensures Accepted(u) <==> exists k :: Text.IsLastDot(u.filename, k) && Text.Lower(u.filename[k + 1..]) in Text.ImageExtensions
  {
  }

  /** The generated names are plain file names: `secure_filename` leaves no
      path separator and the uuid prefix is hexadecimal. */
  predicate PlainNames(uploads: seq<Upload>) {
    forall i :: 0 <= i < |uploads| ==> '/' !in uploads[i].storedName && '\\' !in uploads[i].storedName
  }

  /** How many of the first `i` parts `keep` holds for: with `keep` the
      acceptance test, the position at which part `i`'s name is saved. */
  function KeptBefore(uploads: seq<Upload>, keep: Upload -> bool, i: nat): (r: nat)
    requires i <= |uploads|
    ensures r <= i
  {
    if i == 0 then 0
    else (if keep(uploads[0]) then 1 else 0) + KeptBefore(uploads[1..], keep, i - 1)
  }

  /** The names the upload loop saves, in upload order: one per accepted
      part, the name of part `i` at the number of accepted parts before it. */
  function SavedNames(uploads: seq<Upload>): (r: seq<string>)
    ensures |r| <= |uploads|
    ensures forall n :: n in r <==> exists i :: 0 <= i < |uploads| && Accepted(uploads[i]) && uploads[i].storedName == n
    ensures |r| == KeptBefore(uploads, Accepted, |uploads|)
    ensures forall i :: 0 <= i < |uploads| && Accepted(uploads[i]) ==>
      KeptBefore(uploads, Accepted, i) < |r| && r[KeptBefore(uploads, Accepted, i)] == uploads[i].storedName
  {
    if uploads == [] then []
    else
      var rest := SavedNames(uploads[1..]);
      ConsSaved(uploads, rest);
      ConsKeptOrder(uploads, Accepted, rest);
      (if Accepted(uploads[0]) then [uploads[0].storedName] else []) + rest
  }

  /** The part in front takes position 0 when kept and shifts the positions
      of the rest by one. */
  lemma ConsKeptOrder(uploads: seq<Upload>, keep: Upload -> bool, rest: seq<string>)
    requires uploads != []
    requires |rest| == KeptBefore(uploads[1..], keep, |uploads[1..]|)
    requires forall j :: 0 <= j < |uploads[1..]| && keep(uploads[1..][j]) ==>
      KeptBefore(uploads[1..], keep, j) < |rest| && rest[KeptBefore(uploads[1..], keep, j)] == uploads[1..][j].storedName
    ensures var r := (if keep(uploads[0]) then [uploads[0].storedName] else []) + rest;
      && |r| == KeptBefore(uploads, keep, |uploads|)
      && forall i :: 0 <= i < |uploads| && keep(uploads[i]) ==>
        KeptBefore(uploads, keep, i) < |r| && r[KeptBefore(uploads, keep, i)] == uploads[i].storedName
  {
    var head: seq<string> := if keep(uploads[0]) then [uploads[0].storedName] else [];
    var tail := uploads[1..];
    var r := head + rest;
    forall i | 0 <= i < |uploads| && keep(uploads[i])
      ensures KeptBefore(uploads, keep, i) < |r| && r[KeptBefore(uploads, keep, i)] == uploads[i].storedName
    {
      if i > 0 {
        var j := i - 1;
        assert tail[j] == uploads[i];
        var a := KeptBefore(tail, keep, j);
        assert a < |rest| && rest[a] == tail[j].storedName;
        assert KeptBefore(uploads, keep, i) == |head| + a;
        assert r[|head| + a] == rest[a];
      }
    }
  }

  /** The part in front adds its name exactly when it is accepted. */
  lemma ConsSaved(uploads: seq<Upload>, rest: seq<string>)
    requires uploads != [] && |rest| < |uploads|
    requires forall n :: n in rest <==>
      exists j :: 0 <= j < |uploads[1..]| && Accepted(uploads[1..][j]) && uploads[1..][j].storedName == n
    ensures var r := (if Accepted(uploads[0]) then [uploads[0].storedName] else []) + rest;
      && |r| <= |uploads|
      && forall n :: n in r <==> exists i :: 0 <= i < |uploads| && Accepted(uploads[i]) && uploads[i].storedName == n
  {
    var head: seq<string> := if Accepted(uploads[0]) then [uploads[0].storedName] else [];
    var r := head + rest;
    forall n
      ensures n in r <==> exists i :: 0 <= i < |uploads| && Accepted(uploads[i]) && uploads[i].storedName == n
    {
      if n in r {
        if n in head {
          assert Accepted(uploads[0]) && uploads[0].storedName == n;
        } else {
          assert n in rest;
          var j :| 0 <= j < |uploads[1..]| && Accepted(uploads[1..][j]) && uploads[1..][j].storedName == n;
          assert uploads[j + 1] == uploads[1..][j];
        }
      }
      if exists i :: 0 <= i < |uploads| && Accepted(uploads[i]) && uploads[i].storedName == n {
        var i :| 0 <= i < |uploads| && Accepted(uploads[i]) && uploads[i].storedName == n;
        if i == 0 {
          assert n in head;
        } else {
          assert uploads[1..][i - 1] == uploads[i];
          assert n in rest;
        }
      }
    }
  }

  /** Some part carries a file name: `any(f.filename for f in new_files)`. */
  predicate AnyFilename(uploads: seq<Upload>) {
    exists i :: 0 <= i < |uploads| && uploads[i].filename != ""
  }

  /** Without a file name no part is accepted. */
  lemma NoFilenameNothingSaved(uploads: seq<Upload>)
    ensures !AnyFilename(uploads) ==> SavedNames(uploads) == []
  {
    if !AnyFilename(uploads) && SavedNames(uploads) != [] {
      assert SavedNames(uploads)[0] in SavedNames(uploads);
    }
  }

  lemma SavedNamesPlain(uploads: seq<Upload>)
    requires PlainNames(uploads)
    ensures forall i :: 0 <= i < |SavedNames(uploads)| ==>
      '/' !in SavedNames(uploads)[i] && '\\' !in SavedNames(uploads)[i]
  {
    var names := SavedNames(uploads);
    forall i | 0 <= i < |names|
      ensures '/' !in names[i] && '\\' !in names[i]
    {
      assert names[i] in names;
    }
  }

  /** The `image_url` values the loop inserts: each one's `basename` is the
      saved file. */
  function UrlsOf(names: seq<string>): (r: seq<string>)
    requires forall i :: 0 <= i < |names| ==> '/' !in names[i] && '\\' !in names[i]
    ensures |r| == |names|
    ensures forall i :: 0 <= i < |r| ==> r[i] == Text.UploadUrl(names[i])
    ensures forall i :: 0 <= i < |r| ==> Text.Basename(r[i]) == names[i]
  {
    var r := seq(|names|, i requires 0 <= i < |names| => Text.UploadUrl(names[i]));
    assert forall i :: 0 <= i < |r| ==> Text.Basename(r[i]) == names[i] by {
      forall i | 0 <= i < |r|
        ensures Text.Basename(r[i]) == names[i]
      {
        Text.BasenameOfUploadUrl(names[i]);
      }
    }
    r
  }

  function Elems(names: seq<string>): (r: set<string>)
    ensures forall n :: n in r <==> n in names
  {
    set n | n in names
  }

  /** The files saved before a failure are among all the files to save. */
  lemma PrefixElems(names: seq<string>, k: nat)
    requires k <= |names|
    ensures Elems(names[..k]) <= Elems(names)
  {
    forall n | n in Elems(names[..k])
      ensures n in Elems(names)
    {
      var i :| 0 <= i < k && names[..k][i] == n;
      assert names[i] == n;
    }
  }

  /** `after` is `before` plus one new row per saved name, with ids `next`,
      `next + 1`, ... for `productId`: only the first may be primary, and it is
      exactly when `primaryFirst`; each row's `image_url` is `uploads/` plus
      its saved name, which `basename` finds again; the other rows are
      untouched. */
  ghost predicate Appended(before: map<Id, Image>, after: map<Id, Image>, next: Id, productId: Id, names: seq<string>, primaryFirst: bool) {
    && (forall k :: k in after <==> k in before || next <= k < next + |names|)
    && (forall k :: k in before && !(next <= k < next + |names|) ==> after[k] == before[k])
    && (forall k :: next <= k < next + |names| ==> UploadRow(after[k], productId, names[k - next], primaryFirst && k == next))
  }

  /** The row the upload loop inserts for the saved file `name`. */
  ghost predicate UploadRow(row: Image, productId: Id, name: string, primary: bool) {
    && row.productId == productId
    && '/' !in name && '\\' !in name
    && row.url == Text.UploadUrl(name)
    && Text.Basename(row.url) == name
    && row.isPrimary == primary
    && row.sortOrder == DefaultSortOrder
  }

  /** Appending the upload URLs of the saved names adds their upload rows
      after the existing ones. */
  lemma AppendImagesAppended(images: map<Id, Image>, next: Id, productId: Id, names: seq<string>, urls: seq<string>, primaryFirst: bool)
    requires forall i :: 0 <= i < |names| ==> '/' !in names[i] && '\\' !in names[i]
    requires |urls| == |names| && forall i :: 0 <= i < |urls| ==> urls[i] == Text.UploadUrl(names[i])
    ensures Appended(images, AppendImages(images, next, productId, urls, primaryFirst), next, productId, names, primaryFirst)
  {
    var after := AppendImages(images, next, productId, urls, primaryFirst);
    assert forall k :: k in after <==> k in images || next <= k < next + |urls|;
    assert forall k :: k in images && !(next <= k < next + |urls|) ==> after[k] == images[k];
    AppendedRows(images, next, productId, names, urls, primaryFirst);
  }

  /** Row `next + i` is the upload row of the `i`-th saved name. */
  lemma AppendedRows(images: map<Id, Image>, next: Id, productId: Id, names: seq<string>, urls: seq<string>, primaryFirst: bool)
    requires forall i :: 0 <= i < |names| ==> '/' !in names[i] && '\\' !in names[i]
    requires |urls| == |names| && forall i :: 0 <= i < |urls| ==> urls[i] == Text.UploadUrl(names[i])
    ensures var after := AppendImages(images, next, productId, urls, primaryFirst);
      forall k :: next <= k < next + |names| ==> k in after && UploadRow(after[k], productId, names[k - next], primaryFirst && k == next)
  {
    var after := AppendImages(images, next, productId, urls, primaryFirst);
    forall k | next <= k < next + |names|
      ensures k in after && UploadRow(after[k], productId, names[k - next], primaryFirst && k == next)
    {
      var i := k - next;
      assert after[next + i] == NewImageRow(productId, urls[i], Some(primaryFirst && i == 0));
      NewUploadRow(productId, names[i], urls[i], primaryFirst && i == 0);
    }
  }

  /** The row inserted for a saved file is its upload row. */
  lemma NewUploadRow(productId: Id, name: string, url: string, primary: bool)
    requires '/' !in name && '\\' !in name && url == Text.UploadUrl(name)
    ensures UploadRow(NewImageRow(productId, url, Some(primary)), productId, name, primary)
  {
    Text.BasenameOfUploadUrl(name);
  }

  /** The image rows of an upload loop, and the counter after it. */
  function AddImages(db: Db, productId: Id, names: seq<string>, primaryFirst: bool): (r: Db)
    requires forall i :: 0 <= i < |names| ==> '/' !in names[i] && '\\' !in names[i]
    ensures Appended(db.images, r.images, db.nextImage, productId, names, primaryFirst)
    ensures r == db.(images := r.images, nextImage := db.nextImage + |names|)
  {
    var urls := UrlsOf(names);
    AppendImagesAppended(db.images, db.nextImage, productId, names, urls, primaryFirst);
    db.(images := AppendImages(db.images, db.nextImage, productId, urls, primaryFirst), nextImage := db.nextImage + |names|)
  }

  /** An upload loop keeps the invariant when the first row is primary
      exactly if the product had no image, and the product exists. */
  lemma AddImagesKeepsValid(db: Db, productId: Id, names: seq<string>, primaryFirst: bool)
    requires forall i :: 0 <= i < |names| ==> '/' !in names[i] && '\\' !in names[i]
    requires Valid(db) && productId < db.nextProduct
    requires names != [] ==> (primaryFirst <==> IdsOf(db.images, productId) == {})
    ensures Valid(AddImages(db, productId, names, primaryFirst))
  {
    var urls := UrlsOf(names);
    AppendKeepsPrimaryIsFirst(db.images, db.nextImage, productId, urls, primaryFirst);
    AddImagesKeepsConsistent(db, productId, names, primaryFirst);
  }

  /** The new rows take ids from the counter and point at an existing
      product, so the counters still bound every key. */
  lemma AddImagesKeepsConsistent(db: Db, productId: Id, names: seq<string>, primaryFirst: bool)
    requires forall i :: 0 <= i < |names| ==> '/' !in names[i] && '\\' !in names[i]
    requires Consistent(db) && productId < db.nextProduct
    ensures Consistent(AddImages(db, productId, names, primaryFirst))
  {
    var r := AddImages(db, productId, names, primaryFirst);
    assert Appended(db.images, r.images, db.nextImage, productId, names, primaryFirst);
    forall k | k in r.images
      ensures k < r.nextImage && r.images[k].productId < r.nextProduct
    {
      if !(db.nextImage <= k < db.nextImage + |names|) {
        assert k in db.images && r.images[k] == db.images[k];
      }
    }
  }

  // ---------------------------------------------------------------- products

  /** A numeric form field: absent, present but not a number, or parsed. */
  datatype Field<T> = Missing | Malformed | Given(value: T)

  /** The product form; `categoryId` is `None` when the field is absent or
      the empty string. */
  datatype ProductForm = ProductForm(
    name: Option<string>,
    description: Option<string>,
    price: Field<real>,
    stock: Field<int>,
    categoryId: Option<Id>)

  /** The add form indexes every field: a missing one, or a price or stock
      that does not parse, aborts the request before the database is touched. */
  predicate Complete(form: ProductForm) {
    form.name.Some? && form.description.Some? && form.price.Given? && form.stock.Given?
  }

  /** Adding a product (app/admin/routes.py:251-295). Inside the
      transaction the handler issues the product INSERT (statement 0), then,
      for each accepted upload, saves the file and INSERTs its image row
      (statements 1, 2, ...). The first accepted upload is primary. */
  function AddProduct(s: Store, form: ProductForm, uploads: seq<Upload>, fault: Fault): (r: Outcome)
    requires PlainNames(uploads)
    ensures r.status == BadInput <==> !Complete(form)
    ensures r.status == Done <==>
      Complete(form) && CategoryRefOk(s.db, form.categoryId) && !Strikes(fault, 1 + |SavedNames(uploads)|)
    ensures r.status in {Done, BadInput, Failed}
    ensures r.status != Done ==> r.store.db == s.db
    ensures s.files <= r.store.files <= s.files + Elems(SavedNames(uploads))
    ensures r.status == Done || (fault.CommitFails? && Complete(form) && CategoryRefOk(s.db, form.categoryId)) ==>
      r.store.files == s.files + Elems(SavedNames(uploads))
    ensures r.status == Done ==>
      && r.store.db.products == s.db.products[s.db.nextProduct :=
           Product(form.name.value, form.description, form.price.value, form.stock.value, None, form.categoryId)]
      && r.store.db.nextProduct == s.db.nextProduct + 1
      && r.store.db.categories == s.db.categories && r.store.db.comments == s.db.comments && r.store.db.users == s.db.users
      && Appended(s.db.images, r.store.db.images, s.db.nextImage, s.db.nextProduct, SavedNames(uploads), true)
    ensures r.status == Done ==>
      r.store.db == s.db.(products := r.store.db.products, nextProduct := s.db.nextProduct + 1,
                          images := r.store.db.images, nextImage := r.store.db.nextImage)
    ensures r.status == Done ==> r.store.db.nextImage == s.db.nextImage + |SavedNames(uploads)|
  {
    if !Complete(form) then Outcome(s, BadInput)
    else
      var p := Product(form.name.value, form.description, form.price.value, form.stock.value, None, form.categoryId);
      match InsertProduct(s.db, p)
      case Err(_) =>
        assert !CategoryRefOk(s.db, form.categoryId);
        Outcome(s, Failed)
      case Ok((db1, pid)) =>
        var names := SavedNames(uploads);
        SavedNamesPlain(uploads);
        assert Strikes(fault, 1 + |names|) <==> (fault.StatementFails? && fault.k <= |names|) || fault.CommitFails?;
        assert db1.images == s.db.images && db1.nextImage == s.db.nextImage && pid == s.db.nextProduct;
        if fault.StatementFails? && fault.k <= |names| then
          PrefixElems(names, fault.k);
          Outcome(Store(s.db, s.files + Elems(names[..fault.k])), Failed)
        else if fault.CommitFails? then Outcome(Store(s.db, s.files + Elems(names)), Failed)
        else
          var db2 := AddImages(db1, pid, names, true);
          assert db2 == s.db.(products := db2.products, nextProduct := s.db.nextProduct + 1, images := db2.images, nextImage := db2.nextImage);
          Outcome(Store(db2, s.files + Elems(names)), Done)
  }

  /** Adding a product keeps the invariant: the new product has no earlier
      image row, so its first upload is rightly primary. */
  lemma AddProductKeepsValid(s: Store, form: ProductForm, uploads: seq<Upload>, fault: Fault)
    requires PlainNames(uploads)
    requires Valid(s.db)
    ensures Valid(AddProduct(s, form, uploads, fault).store.db)
  {
    if Complete(form) {
      var p := Product(form.name.value, form.description, form.price.value, form.stock.value, None, form.categoryId);
      match InsertProduct(s.db, p)
      case Err(_) =>
      case Ok((db1, pid)) =>
        var names := SavedNames(uploads);
        if !(fault.StatementFails? && fault.k <= |names|) && !fault.CommitFails? {
          SavedNamesPlain(uploads);
          assert db1.images == s.db.images && pid == s.db.nextProduct;
          assert forall k :: k !in IdsOf(db1.images, pid);
          assert IdsOf(db1.images, pid) == {};
          AddImagesKeepsValid(db1, pid, names, true);
          assert AddProduct(s, form, uploads, fault).store.db == AddImages(db1, pid, names, true);
        }
    }
  }

  /** `str(value or '')`: an absent field reads as empty. */
  function OrEmpty(field: Option<string>): string {
    if field.Some? then field.value else ""
  }

  /** The row an edit writes: name and description stripped, an absent one
      read as empty; an absent price or stock keeps the stored value;
      the submitted category; the stored `image_url`. */
  function EditedRow(prev: Product, form: ProductForm): (p: Product)
    requires !form.price.Malformed? && !form.stock.Malformed?
    ensures p.name == Text.Strip(OrEmpty(form.name))
    ensures p.description == Some(Text.Strip(OrEmpty(form.description)))
    ensures form.price.Missing? ==> p.price == prev.price
    ensures form.price.Given? ==> p.price == form.price.value
    ensures form.stock.Missing? ==> p.stock == prev.stock
    ensures form.stock.Given? ==> p.stock == form.stock.value
    ensures p.imageUrl == prev.imageUrl && p.categoryId == form.categoryId
  {
    Product(
      Text.Strip(OrEmpty(form.name)),
      Some(Text.Strip(OrEmpty(form.description))),
      if form.price.Given? then form.price.value else prev.price,
      if form.stock.Given? then form.stock.value else prev.stock,
      prev.imageUrl,
      form.categoryId)
  }

  /** Statements the edit transaction issues: the UPDATE, and when some part
      has a file name, the image COUNT and one INSERT per accepted upload. */
  function EditIssued(uploads: seq<Upload>): nat {
    1 + if AnyFilename(uploads) then 1 + |SavedNames(uploads)| else 0
  }

  /** Editing a product (app/admin/routes.py:307-365). Name and description
      are stripped (absent reads as empty); an absent price or stock keeps
      the stored value, an unparsable one aborts; `image_url` is kept. The
      accepted uploads are appended, the first one primary exactly when the
      product had no image. */
  function EditProduct(s: Store, pid: Id, form: ProductForm, uploads: seq<Upload>, fault: Fault): (r: Outcome)
    requires PlainNames(uploads)
    ensures r.status == NotFound <==> pid !in s.db.products
    ensures r.status == BadInput <==> pid in s.db.products && (form.price.Malformed? || form.stock.Malformed?)
    ensures r.status == Done <==>
      && pid in s.db.products && !form.price.Malformed? && !form.stock.Malformed?
      && CategoryRefOk(s.db, form.categoryId) && !Strikes(fault, EditIssued(uploads))
    ensures r.status != Done ==> r.store.db == s.db
    ensures r.status == NotFound || r.status == BadInput ==> r.store == s
    ensures s.files <= r.store.files <= s.files + Elems(SavedNames(uploads))
    ensures r.status == Done ==> r.store.files == s.files + Elems(SavedNames(uploads))
    ensures r.status == Done ==>
      && r.store.db.products == s.db.products[pid := EditedRow(s.db.products[pid], form)]
      && r.store.db.categories == s.db.categories && r.store.db.comments == s.db.comments && r.store.db.users == s.db.users
      && Appended(s.db.images, r.store.db.images, s.db.nextImage, pid, SavedNames(uploads), IdsOf(s.db.images, pid) == {})
    ensures r.status == Done ==>
      r.store.db == s.db.(products := r.store.db.products, images := r.store.db.images, nextImage := r.store.db.nextImage)
    ensures r.status == Done ==> r.store.db.nextImage == s.db.nextImage + |SavedNames(uploads)|
  {
    if pid !in s.db.products then Outcome(s, NotFound)
    else if form.price.Malformed? || form.stock.Malformed? then Outcome(s, BadInput)
    else
      match UpdateProductRow(s.db, pid, EditedRow(s.db.products[pid], form))
      case Err(_) => Outcome(s, Failed)
      case Ok(db1) =>
        var names := SavedNames(uploads);
        SavedNamesPlain(uploads);
        NoFilenameNothingSaved(uploads);
        if fault.StatementFails? && fault.k < EditIssued(uploads) then
          var saved := if fault.k == 0 then 0 else fault.k - 1;
          PrefixElems(names, saved);
          Outcome(Store(s.db, s.files + Elems(names[..saved])), Failed)
        else if fault.CommitFails? then Outcome(Store(s.db, s.files + Elems(names)), Failed)
        else Outcome(Store(EditCommitted(s.db, db1, pid, EditedRow(s.db.products[pid], form), names), s.files + Elems(names)), Done)
  }

  /** The database an edit commits: the updated row `db1` plus the image rows
      of the saved files, the first primary exactly when the product had
      none. */
  function EditCommitted(db: Db, db1: Db, pid: Id, row: Product, names: seq<string>): (r: Db)
    requires pid in db.products && UpdateProductRow(db, pid, row) == Ok(db1)
    requires forall i :: 0 <= i < |names| ==> '/' !in names[i] && '\\' !in names[i]
    ensures r.products == db.products[pid := row]
    ensures Appended(db.images, r.images, db.nextImage, pid, names, IdsOf(db.images, pid) == {})
    ensures r == db.(products := r.products, images := r.images, nextImage := db.nextImage + |names|)
  {
    AddImages(db1, pid, names, IdsOf(db1.images, pid) == {})
  }

  lemma EditProductKeepsValid(s: Store, pid: Id, form: ProductForm, uploads: seq<Upload>, fault: Fault)
    requires PlainNames(uploads)
    requires Valid(s.db)
    ensures Valid(EditProduct(s, pid, form, uploads, fault).store.db)
  {
    var r := EditProduct(s, pid, form, uploads, fault);
    if r.status == Done {
      var db1 := UpdateProductRow(s.db, pid, EditedRow(s.db.products[pid], form)).value;
      SavedNamesPlain(uploads);
      AddImagesKeepsValid(db1, pid, SavedNames(uploads), IdsOf(db1.images, pid) == {});
    }
  }

  // ---------------------------------------------------------------- deleting

  /** Statements the delete-image transaction issues: the DELETE, and after
      deleting a primary row the SELECT of the next one and, if found, its
      UPDATE. */
  function DeleteImageIssued(images: map<Id, Image>, imageId: Id): nat
    requires imageId in images
  {
    if !images[imageId].isPrimary then 1
    else if FirstImage(images - {imageId}, images[imageId].productId).Some? then 3
    else 2
  }

  /** Deleting one image (app/admin/routes.py:384-419): an unknown id
      changes nothing; otherwise its file is removed first, then the row, and
      a deleted primary hands the flag to the product's lowest-id remaining
      image. */
  function DeleteImage(s: Store, imageId: Id, fault: Fault): (r: Outcome)
    ensures r.status == NotFound <==> imageId !in s.db.images
    ensures r.status == NotFound ==> r.store == s
    ensures r.status == Done <==> imageId in s.db.images && !Strikes(fault, DeleteImageIssued(s.db.images, imageId))
    ensures imageId in s.db.images ==> r.store.files == s.files - {Text.Basename(s.db.images[imageId].url)}
    ensures r.status != Done ==> r.store.db == s.db
    ensures r.status == Done ==>
      && r.store.db == s.db.(images := r.store.db.images)
      && r.store.db.images.Keys == s.db.images.Keys - {imageId}
      && (forall k :: k in r.store.db.images && s.db.images[k].productId != s.db.images[imageId].productId ==>
            r.store.db.images[k] == s.db.images[k])
      && (forall k :: k in r.store.db.images ==>
            r.store.db.images[k].url == s.db.images[k].url && r.store.db.images[k].productId == s.db.images[k].productId)
      && (forall k :: k in r.store.db.images && r.store.db.images[k] != s.db.images[k] ==>
            && s.db.images[imageId].isPrimary
            && Some(k) == FirstImage(s.db.images - {imageId}, s.db.images[imageId].productId)
            && r.store.db.images[k] == s.db.images[k].(isPrimary := true))
      && (s.db.images[imageId].isPrimary && FirstImage(s.db.images - {imageId}, s.db.images[imageId].productId).Some? ==>
            r.store.db.images[FirstImage(s.db.images - {imageId}, s.db.images[imageId].productId).value].isPrimary)
  {
    if imageId !in s.db.images then Outcome(s, NotFound)
    else
      var files := s.files - {Text.Basename(s.db.images[imageId].url)};
      if Strikes(fault, DeleteImageIssued(s.db.images, imageId)) then Outcome(Store(s.db, files), Failed)
      else Outcome(Store(s.db.(images := RemoveImage(s.db.images, imageId)), files), Done)
  }

  /** Deleting an image keeps the invariant; in particular, when the deleted
      image was primary and the product has images left, its new lowest-id
      image is primary. */
  lemma DeleteImageKeepsValid(s: Store, imageId: Id, fault: Fault)
    requires Valid(s.db)
    ensures Valid(DeleteImage(s, imageId, fault).store.db)
  {
    if imageId in s.db.images && !Strikes(fault, DeleteImageIssued(s.db.images, imageId)) {
      var db := s.db.(images := RemoveImage(s.db.images, imageId));
      assert DeleteImage(s, imageId, fault).store.db == db;
      RemoveKeepsPrimaryIsFirst(s.db.images, imageId);
      RemoveKeepsConsistent(s.db, imageId);
    }
  }

  lemma RemoveKeepsConsistent(db: Db, imageId: Id)
    requires Consistent(db) && imageId in db.images
    ensures Consistent(db.(images := RemoveImage(db.images, imageId)))
  {
    var images := RemoveImage(db.images, imageId);
    assert forall k :: k in images ==> k in db.images && images[k].productId == db.images[k].productId;
  }

  /** The names of the files behind the image rows of some products. */
  function ImageFiles(images: map<Id, Image>, pids: set<Id>): (r: set<string>)
    ensures forall n :: n in r <==> exists k :: k in images && images[k].productId in pids && Text.Basename(images[k].url) == n
  {
    set k | k in images && images[k].productId in pids :: Text.Basename(images[k].url)
  }

  /** Deleting a product (app/admin/routes.py:431-449): the files of its
      images are removed first, then the product row, its one statement. Its
      image rows go only through the declared cascade, so without
      enforced foreign keys, or when no product row had that id, they stay
      behind. */
  function DeleteProduct(s: Store, pid: Id, fault: Fault): (r: Outcome)
    ensures r.status in {Done, Failed}
    ensures r.status == Done <==> !Strikes(fault, 1)
    ensures r.store.files == s.files - ImageFiles(s.db.images, {pid})
    ensures r.status != Done ==> r.store.db == s.db
    ensures r.status == Done ==>
      && r.store.db.products.Keys == s.db.products.Keys - {pid}
      && (forall k :: k in r.store.db.products ==> r.store.db.products[k] == s.db.products[k])
      && r.store.db.categories == s.db.categories && r.store.db.comments == s.db.comments
      && (!(s.db.foreignKeys && pid in s.db.products) ==> r.store.db.images == s.db.images)
      && (s.db.foreignKeys && pid in s.db.products ==>
            forall k :: k in r.store.db.images <==> k in s.db.images && s.db.images[k].productId != pid)
      && (forall k :: k in r.store.db.images ==> r.store.db.images[k] == s.db.images[k])
      && r.store.db == s.db.(products := r.store.db.products, images := r.store.db.images)
  {
    var files := s.files - ImageFiles(s.db.images, {pid});
    if Strikes(fault, 1) then Outcome(Store(s.db, files), Failed)
    else Outcome(Store(DeleteProductRows(s.db, {pid}), files), Done)
  }

  lemma DeleteProductKeepsValid(s: Store, pid: Id, fault: Fault)
    requires Valid(s.db)
    ensures Valid(DeleteProduct(s, pid, fault).store.db)
  {
    var r := DeleteProduct(s, pid, fault);
    if r.status == Done && s.db.foreignKeys {
      KeepWholeProducts(s.db.images, r.store.db.images);
    }
  }

  /** The explicit part of deleting a category: image rows, comments and
      products of the category's products. */
  function DeleteOwnedRows(db: Db, pids: set<Id>): (r: Db)
    requires db.comments.Some?
    ensures forall k :: k in r.images <==> k in db.images && db.images[k].productId !in pids
    ensures forall k :: k in r.images ==> r.images[k] == db.images[k]
    ensures r.comments.Some?
    ensures forall k :: k in r.comments.value <==> k in db.comments.value && db.comments.value[k].productId !in pids
    ensures forall k :: k in r.comments.value ==> r.comments.value[k] == db.comments.value[k]
    ensures r.products.Keys == db.products.Keys - pids
    ensures forall k :: k in r.products ==> r.products[k] == db.products[k]
    ensures r.categories == db.categories && r.users == db.users
    ensures r.nextCategory == db.nextCategory && r.nextProduct == db.nextProduct && r.nextImage == db.nextImage
    ensures r.nextUser == db.nextUser && r.foreignKeys == db.foreignKeys
  {
    var db1 := db.(
      images := map k | k in db.images && db.images[k].productId !in pids :: db.images[k],
      comments := Some(map k | k in db.comments.value && db.comments.value[k].productId !in pids :: db.comments.value[k]));
    DeleteProductRows(db1, pids)
  }

  /** Deleting a category (app/admin/routes.py:190-242). Inside the
      transaction: the SELECT of its products (statement 0); when there are
      any, the SELECT of their images (1), the removal of those files, the
      DELETEs of their image rows (2), comments (3) and products (4); then
      the DELETE of the category. Without a `comments` table statement 3
      raises. */
  function DeleteCategory(s: Store, cid: Id, fault: Fault): (r: Outcome)
    ensures r.status in {Done, Failed}
    ensures r.status == Done <==>
      if ProductsIn(s.db, cid) == {} then !Strikes(fault, 2)
      else s.db.comments.Some? && !Strikes(fault, 6)
    ensures r.status != Done ==> r.store.db == s.db
    ensures r.store.files ==
      if ProductsIn(s.db, cid) == {} || (fault.StatementFails? && fault.k < 2) then s.files
      else s.files - ImageFiles(s.db.images, ProductsIn(s.db, cid))
    ensures r.status == Done ==> CategoryRemoved(s.db, r.store.db, cid)
  {
    var pids := ProductsIn(s.db, cid);
    if pids == {} then
      if Strikes(fault, 2) then Outcome(s, Failed)
      else
        DropEmptyCategory(s.db, cid);
        Outcome(Store(DeleteCategoryRow(s.db, cid), s.files), Done)
    else if fault.StatementFails? && fault.k < 2 then Outcome(s, Failed)
    else
      var files := s.files - ImageFiles(s.db.images, pids);
      if s.db.comments.None? || Strikes(fault, 6) then Outcome(Store(s.db, files), Failed)
      else
        DropFullCategory(s.db, cid);
        Outcome(Store(DeleteCategoryRow(DeleteOwnedRows(s.db, pids), cid), files), Done)
  }

  /** `after` is `before` without category `cid`, its products, and their
      image and comment rows; everything else is kept as it was. */
  ghost predicate CategoryRemoved(before: Db, after: Db, cid: Id) {
    && after.categories.Keys == before.categories.Keys - {cid}
    && (forall k :: k in after.categories ==> after.categories[k] == before.categories[k])
    && (forall k :: k in after.products <==> k in before.products && before.products[k].categoryId != Some(cid))
    && (forall k :: k in after.products ==> after.products[k] == before.products[k])
    && (forall k :: k in after.images <==> k in before.images && before.images[k].productId !in ProductsIn(before, cid))
    && (forall k :: k in after.images ==> after.images[k] == before.images[k])
    && (after.comments.Some? <==> before.comments.Some?)
    && (before.comments.Some? ==>
          && (forall k :: k in after.comments.value <==>
                k in before.comments.value && before.comments.value[k].productId !in ProductsIn(before, cid))
          && (forall k :: k in after.comments.value ==> after.comments.value[k] == before.comments.value[k]))
    && after.users == before.users
  }

  /** An empty category goes by its own DELETE; no cascade has anything to do. */
  lemma DropEmptyCategory(db: Db, cid: Id)
    requires ProductsIn(db, cid) == {}
    ensures CategoryRemoved(db, DeleteCategoryRow(db, cid), cid)
  {
    var r := DeleteCategoryRow(db, cid);
    assert db.foreignKeys ==> DeleteProductRows(db.(categories := r.categories), {}).images == db.images;
  }

  /** After the explicit DELETEs the category is empty, and its own DELETE
      completes the removal. */
  lemma DropFullCategory(db: Db, cid: Id)
    requires db.comments.Some?
    ensures CategoryRemoved(db, DeleteCategoryRow(DeleteOwnedRows(db, ProductsIn(db, cid)), cid), cid)
  {
    var pids := ProductsIn(db, cid);
    var db1 := DeleteOwnedRows(db, pids);
    assert ProductsIn(db1, cid) == {};
    var db2 := DeleteCategoryRow(db1, cid);
    assert db1.foreignKeys ==> DeleteProductRows(db1.(categories := db2.categories), {}).images == db1.images;
  }

  /** With the schema `init_db` creates, which has no `comments` table, a
      category that still holds products is never deleted, although the
      files of its images are already gone. */
  lemma DeleteCategoryNeedsComments(s: Store, cid: Id, fault: Fault)
    requires s.db.comments.None? && ProductsIn(s.db, cid) != {}
    requires !(fault.StatementFails? && fault.k < 2)
    ensures DeleteCategory(s, cid, fault).status == Failed
    ensures DeleteCategory(s, cid, fault).store == Store(s.db, s.files - ImageFiles(s.db.images, ProductsIn(s.db, cid)))
  {
  }

  lemma DeleteCategoryKeepsValid(s: Store, cid: Id, fault: Fault)
    requires Valid(s.db)
    ensures Valid(DeleteCategory(s, cid, fault).store.db)
  {
    var r := DeleteCategory(s, cid, fault);
    if r.status == Done {
      var pids := ProductsIn(s.db, cid);
      KeepWholeProducts(s.db.images, r.store.db.images);
    }
  }

  /** Upload, then delete: the file saved for an uploaded image is the one
      deleting that image removes. */
  lemma AddThenDeleteImage(s: Store, form: ProductForm, uploads: seq<Upload>, fault: Fault, i: nat)
    requires PlainNames(uploads)
    requires AddProduct(s, form, uploads, fault).status == Done
    requires i < |SavedNames(uploads)|
    ensures var added := AddProduct(s, form, uploads, fault).store;
      && SavedNames(uploads)[i] in added.files
      && s.db.nextImage + i in added.db.images
      && SavedNames(uploads)[i] !in DeleteImage(added, s.db.nextImage + i, NoFault).store.files
  {
    var names := SavedNames(uploads);
    assert names[i] in names;
  }
}

=== FILE: common.dfy ===
/** Small shared vocabulary: optional values, results that carry an error,
    and the least / greatest element of a finite set of row ids, together
    with the row-id orders the SQL queries of the store ask for. */
module Common {

  /** A value that may be absent (Python's `None`, SQL's `NULL`). */
  datatype Option<T> = None | Some(value: T)

  /** A success value or an error; usable with `:-`. */
  datatype Result<T, E> = Ok(value: T) | Err(error: E) {
    predicate IsFailure() {
      Err?
    }

    function PropagateFailure<U>(): Result<U, E>
      requires Err?
    {
      Err(error)
    }

    function Extract(): T
      requires Ok?
    {
      value
    }
  }

  /** A finite set of integers is empty exactly when nothing is in it. */
  lemma MemberOfNonEmpty(s: set<int>)
    ensures s != {} ==> exists z :: z in s
  {
    if forall z :: z !in s {
      assert forall z :: z in s <==> z in {};
    }
  }

  predicate IsLeast(m: int, s: set<int>) {
    m in s && forall x :: x in s ==> m <= x
  }

  predicate IsGreatest(m: int, s: set<int>) {
    m in s && forall x :: x in s ==> x <= m
  }

  /** Every non-empty finite set of integers has a least element. */
  lemma {:induction false} LeastExists(s: set<int>)
    requires s != {}
    ensures exists m :: IsLeast(m, s)
    decreases |s|
  {
    MemberOfNonEmpty(s);
    var y :| y in s;
    var rest := s - {y};
    if rest == {} {
      forall x | x in s
        ensures x == y
      {
        assert x !in rest;
      }
      assert IsLeast(y, s);
    } else {
      LeastExists(rest);
      var m :| IsLeast(m, rest);
      forall x | x in s && x != y
        ensures m <= x
      {
        assert x in rest;
      }
      if y < m {
        assert IsLeast(y, s);
      } else {
        assert IsLeast(m, s);
      }
    }
  }

  /** Every non-empty finite set of integers has a greatest element. */
  lemma {:induction false} GreatestExists(s: set<int>)
    requires s != {}
    ensures exists m :: IsGreatest(m, s)
    decreases |s|
  {
    MemberOfNonEmpty(s);
    var y :| y in s;
    var rest := s - {y};
    if rest == {} {
      forall x | x in s
        ensures x == y
      {
        assert x !in rest;
      }
      assert IsGreatest(y, s);
    } else {
      GreatestExists(rest);
      var m :| IsGreatest(m, rest);
      forall x | x in s && x != y
        ensures x <= m
      {
        assert x in rest;
      }
      if m < y {
        assert IsGreatest(y, s);
      } else {
        assert IsGreatest(m, s);
      }
    }
  }

  /** The least element of a non-empty set (SQL `ORDER BY id ASC LIMIT 1`). */
  function Least(s: set<int>): (m: int)
    requires s != {}
    ensures IsLeast(m, s)
  {
    LeastExists(s);
    var m :| IsLeast(m, s);
    m
  }

  /** The greatest element of a non-empty set. */
  function Greatest(s: set<int>): (m: int)
    requires s != {}
    ensures IsGreatest(m, s)
  {
    GreatestExists(s);
    var m :| IsGreatest(m, s);
    m
  }

  /** The ids of a set listed from the largest down (SQL `ORDER BY id DESC`). */
  function Descending(s: set<int>): (r: seq<int>)
    ensures |r| == |s|
    ensures forall i :: 0 <= i < |r| ==> r[i] in s
    ensures forall x :: x in s ==> x in r
    ensures forall i, j :: 0 <= i < j < |r| ==> r[i] > r[j]
    decreases |s|
  {
    if s == {} then []
    else
      var m := Greatest(s);
      var rest := Descending(s - {m});
      ConsListing(m, s, rest, true);
      [m] + rest
  }

  /** The ids of a set listed from the smallest up (SQL `ORDER BY id ASC`, which
      is also the order SQLite scans a table by row id). */
  function Ascending(s: set<int>): (r: seq<int>)
    ensures |r| == |s|
    ensures forall i :: 0 <= i < |r| ==> r[i] in s
    ensures forall x :: x in s ==> x in r
    ensures forall i, j :: 0 <= i < j < |r| ==> r[i] < r[j]
    decreases |s|
  {
    if s == {} then []
    else
      var m := Least(s);
      var rest := Ascending(s - {m});
      ConsListing(m, s, rest, false);
      [m] + rest
  }

  /** Putting the extreme element in front of a sorted listing of the rest
      lists the whole set, still sorted. */
  lemma ConsListing(m: int, s: set<int>, rest: seq<int>, down: bool)
    requires if down then IsGreatest(m, s) else IsLeast(m, s)
    requires |rest| == |s - {m}|
    requires forall i :: 0 <= i < |rest| ==> rest[i] in s - {m}
    requires forall x :: x in s - {m} ==> x in rest
    requires forall i, j :: 0 <= i < j < |rest| ==> if down then rest[i] > rest[j] else rest[i] < rest[j]
    ensures |[m] + rest| == |s|
    ensures forall i :: 0 <= i < |[m] + rest| ==> ([m] + rest)[i] in s
    ensures forall x :: x in s ==> x in [m] + rest
    ensures forall i, j :: 0 <= i < j < |[m] + rest| ==>
      if down then ([m] + rest)[i] > ([m] + rest)[j] else ([m] + rest)[i] < ([m] + rest)[j]
  {
    var r := [m] + rest;
    assert forall i :: 1 <= i < |r| ==> r[i] == rest[i - 1];
    forall x | x in s
      ensures x in r
    {
      if x != m {
        assert x in s - {m};
      }
    }
  }
}

=== FILE: images.dfy ===
/** The image set of each product (the `product_images` table): which row
    is primary, how uploads are appended, how deleting an image re-elects a
    primary, and the thumbnail the listings show. The invariant kept by every
    admin mutation is `PrimaryIsFirst`: a row is primary exactly when it has
    the lowest id among its product's rows. */
module Images {
  import opened Common
  import opened Schema

  /** The ids of a product's image rows. */
  function IdsOf(images: map<Id, Image>, productId: Id): (r: set<Id>)
    ensures forall k :: k in r <==> k in images && images[k].productId == productId
  {
    set k | k in images && images[k].productId == productId
  }

  /** `SELECT ... FROM product_images WHERE product_id = ? ORDER BY id ASC LIMIT 1`. */
  function FirstImage(images: map<Id, Image>, productId: Id): (r: Option<Id>)
    ensures r.None? <==> IdsOf(images, productId) == {}
    ensures r.Some? ==> r.value in images && images[r.value].productId == productId
    ensures r.Some? ==> forall k :: k in images && images[k].productId == productId ==> r.value <= k
  {
    var ids := IdsOf(images, productId);
    if ids == {} then None else Some(Least(ids))
  }

  /** The `primary_image_url` column of both listings: the `image_url` of the
      product's lowest-id image (app/admin/routes.py:101, app/main/routes.py:42). */
  function Thumbnail(images: map<Id, Image>, productId: Id): (r: Option<string>)
    ensures r.None? <==> IdsOf(images, productId) == {}
    ensures r.Some? ==> exists k ::
      k in images && images[k].productId == productId && IsFirstOfProduct(images, k) && images[k].url == r.value
  {
    match FirstImage(images, productId)
    case None => None
    case Some(k) => Some(images[k].url)
  }

  /** Row `id` has the lowest id among its product's rows. */
  predicate IsFirstOfProduct(images: map<Id, Image>, id: Id)
    requires id in images
  {
    forall k :: k in images && images[k].productId == images[id].productId ==> id <= k
  }

  /** The primary-image invariant. */
  predicate PrimaryIsFirst(images: map<Id, Image>) {
    forall id :: id in images ==> (images[id].isPrimary <==> IsFirstOfProduct(images, id))
  }

  /** Under the invariant a product with images has exactly one primary image,
      and a product without images has none. */
  lemma ExactlyOnePrimary(images: map<Id, Image>, productId: Id)
    requires PrimaryIsFirst(images)
    ensures IdsOf(images, productId) != {} ==>
      exists k :: k in images && images[k].productId == productId && images[k].isPrimary
    ensures forall a, b ::
      (a in images && b in images && images[a].productId == productId && images[b].productId == productId
       && images[a].isPrimary && images[b].isPrimary) ==> a == b
  {
    var first := FirstImage(images, productId);
    if first.Some? {
      assert images[first.value].isPrimary;
    }
  }

  /** The list thumbnail is the primary image: the lowest-id row is flagged
      primary, and any primary row of the product has the thumbnail's URL. */
  lemma ThumbnailIsPrimary(images: map<Id, Image>, productId: Id)
    requires PrimaryIsFirst(images)
    ensures FirstImage(images, productId).Some? ==> images[FirstImage(images, productId).value].isPrimary
    ensures forall k :: k in images && images[k].productId == productId && images[k].isPrimary ==>
      Thumbnail(images, productId) == Some(images[k].url)
  {
    var first := FirstImage(images, productId);
    forall k | k in images && images[k].productId == productId && images[k].isPrimary
      ensures Thumbnail(images, productId) == Some(images[k].url)
    {
      assert IsFirstOfProduct(images, k);
      assert first.Some? && first.value <= k && k <= first.value;
    }
  }

  // ---------------------------------------------------------------- appending

  /** The image rows an upload loop inserts for `productId`, one per URL, with
      ids `next`, `next + 1`, ...; only the first may be flagged primary. */
  function AppendImages(images: map<Id, Image>, next: Id, productId: Id, urls: seq<string>, primaryFirst: bool)
    : (r: map<Id, Image>)
    ensures forall k :: k in r <==> k in images || next <= k < next + |urls|
    ensures forall k :: k in images && !(next <= k < next + |urls|) ==> r[k] == images[k]
    ensures forall i :: 0 <= i < |urls| ==> r[next + i] == NewImageRow(productId, urls[i], Some(primaryFirst && i == 0))
    decreases |urls|
  {
    if urls == [] then images
    else
      var r := AppendImages(images[next := NewImageRow(productId, urls[0], Some(primaryFirst))], next + 1, productId, urls[1..], false);
      assert forall i :: 1 <= i < |urls| ==> r[next + i] == NewImageRow(productId, urls[i], Some(false)) by {
        forall i | 1 <= i < |urls|
          ensures r[next + i] == NewImageRow(productId, urls[i], Some(false))
        {
          assert next + i == (next + 1) + (i - 1);
          assert urls[1..][i - 1] == urls[i];
        }
      }
      r
  }

  /** Inserting one row with a fresh, larger id keeps the invariant when the
      row is primary exactly if its product had no image. */
  lemma InsertKeepsPrimaryIsFirst(images: map<Id, Image>, id: Id, row: Image)
    requires PrimaryIsFirst(images)
    requires KeysBelow(images, id)
    requires row.isPrimary <==> IdsOf(images, row.productId) == {}
    ensures PrimaryIsFirst(images[id := row])
  {
    var r := images[id := row];
    forall k | k in r
      ensures r[k].isPrimary <==> IsFirstOfProduct(r, k)
    {
      if k == id {
        if IdsOf(images, row.productId) != {} {
          MemberOfNonEmpty(IdsOf(images, row.productId));
          var j :| j in IdsOf(images, row.productId);
          assert j in r && r[j].productId == row.productId && j < id;
        } else {
          forall j | j in r && r[j].productId == row.productId
            ensures id <= j
          {
            if j != id {
              assert false;
            }
          }
        }
      } else {
        assert r[k] == images[k];
        if IsFirstOfProduct(images, k) {
          forall j | j in r && r[j].productId == r[k].productId
            ensures k <= j
          {
            if j != id {
              assert j in images;
            }
          }
        } else {
          var j :| j in images && images[j].productId == images[k].productId && j < k;
          assert j in r && r[j] == images[j];
        }
      }
    }
  }

  /** The upload loops keep the invariant: the first appended row is primary
      exactly when the product had no image before. */
  lemma {:induction false} AppendKeepsPrimaryIsFirst(images: map<Id, Image>, next: Id, productId: Id, urls: seq<string>, primaryFirst: bool)
    requires PrimaryIsFirst(images)
    requires KeysBelow(images, next)
    requires urls != [] ==> (primaryFirst <==> IdsOf(images, productId) == {})
    ensures PrimaryIsFirst(AppendImages(images, next, productId, urls, primaryFirst))
    decreases |urls|
  {
    if urls != [] {
      var row := NewImageRow(productId, urls[0], Some(primaryFirst));
      InsertKeepsPrimaryIsFirst(images, next, row);
      var images' := images[next := row];
      assert next in IdsOf(images', productId);
      AppendKeepsPrimaryIsFirst(images', next + 1, productId, urls[1..], false);
    }
  }

  // ---------------------------------------------------------------- deleting

  /** `DELETE FROM product_images WHERE id = ?`, then, if the deleted row was
      primary, flag the product's lowest-id remaining row as primary
      (app/admin/routes.py:404-410). */
  function RemoveImage(images: map<Id, Image>, id: Id): (r: map<Id, Image>)
    requires id in images
    ensures r.Keys == images.Keys - {id}
    ensures forall k :: k in r && r[k] != images[k] ==>
      images[id].isPrimary && Some(k) == FirstImage(images - {id}, images[id].productId)
    ensures forall k :: k in r && r[k] != images[k] ==> r[k] == images[k].(isPrimary := true)
    ensures forall k :: k in r ==> r[k].productId == images[k].productId && r[k].url == images[k].url
    ensures images[id].isPrimary && FirstImage(images - {id}, images[id].productId).Some? ==>
      r[FirstImage(images - {id}, images[id].productId).value].isPrimary
  {
    var rest := images - {id};
    if images[id].isPrimary then
      match FirstImage(rest, images[id].productId)
      case None => rest
      case Some(j) => rest[j := rest[j].(isPrimary := true)]
    else rest
  }

  /** Deleting an image keeps the invariant; with it, the row re-elected after
      deleting a primary is the product's new lowest-id row. */
  lemma RemoveKeepsPrimaryIsFirst(images: map<Id, Image>, id: Id)
    requires id in images
    requires PrimaryIsFirst(images)
    ensures PrimaryIsFirst(RemoveImage(images, id))
  {
    var p := images[id].productId;
    var rest := images - {id};
    var r := RemoveImage(images, id);
    var first := FirstImage(rest, p);
    forall k | k in r
      ensures r[k].isPrimary <==> IsFirstOfProduct(r, k)
    {
      assert k in images && k != id;
      if images[k].productId != p {
        assert r[k] == images[k];
        if IsFirstOfProduct(images, k) {
          forall j | j in r && r[j].productId == r[k].productId
            ensures k <= j
          {
            assert j in images;
          }
        }
        if IsFirstOfProduct(r, k) {
          forall j | j in images && images[j].productId == images[k].productId
            ensures k <= j
          {
            assert j in r;
          }
        }
      } else if images[id].isPrimary {
        assert IsFirstOfProduct(images, id);
        assert first.Some?;
        if Some(k) == first {
          forall j | j in r && r[j].productId == p
            ensures k <= j
          {
            assert j in rest;
          }
        } else {
          assert r[k] == images[k];
          assert first.value in r && r[first.value].productId == p && first.value < k;
          assert !IsFirstOfProduct(images, k) by {
            assert id in images && images[id].productId == p && id < k;
          }
        }
      } else {
        assert r[k] == images[k];
        var f := FirstImage(images, p).value;
        assert images[f].isPrimary by {
          ThumbnailIsPrimary(images, p);
        }
        assert f != id && f in r;
        if IsFirstOfProduct(images, k) {
          forall j | j in r && r[j].productId == p
            ensures k <= j
          {
            assert j in images;
          }
        }
        if IsFirstOfProduct(r, k) {
          assert k <= f && f <= k;
        }
      }
    }
  }

  /** Removing every row of some products (and keeping all rows of the others)
      keeps the invariant. */
  lemma KeepWholeProducts(images: map<Id, Image>, r: map<Id, Image>)
    requires PrimaryIsFirst(images)
    requires forall k :: k in r ==> k in images && r[k] == images[k]
    requires forall a, b :: a in r && b in images && images[b].productId == images[a].productId ==> b in r
    ensures PrimaryIsFirst(r)
  {
    forall k | k in r
      ensures r[k].isPrimary <==> IsFirstOfProduct(r, k)
    {
      if IsFirstOfProduct(r, k) {
        forall j | j in images && images[j].productId == images[k].productId
          ensures k <= j
        {
          assert j in r;
        }
      }
    }
  }
}

=== FILE: legacy.dfy ===
/** The single-file version of the store (app.py), kept apart from the
    blueprint version: its own extension check, the `home` and `admin_index`
    list builders (category filter on `is not None`, no ORDER BY), the
    single-image replace-or-delete decision of `admin_edit_product`, and
    `admin_delete_category`, which deletes products and the category without
    touching image rows. Files are paths relative to the application root. */
module Legacy {
  import opened Common
  import opened Schema
  import opened Query
  import opened Listing
  import Text
  import Storefront
  import Admin

  /** `ALLOWED_EXTENSIONS` of app.py (app.py:50). */
  const LegacyExtensions: set<string> := {"png", "jpg", "jpeg", "gif"}

  /** `allowed_file` of app.py (app.py:51-52). */
  function LegacyAllowedFile(filename: string): (r: bool)
    ensures r <==> exists k :: Text.IsLastDot(filename, k) && Text.Lower(filename[k + 1..]) in LegacyExtensions
    ensures '.' !in filename ==> !r
  {
    Text.AllowedFile(filename, LegacyExtensions)
  }

  /** The fixed set equals the configured one, so both checks agree on every
      file name. */
  lemma LegacyAllowedFileAgrees(filename: string)
    ensures LegacyAllowedFile(filename) == Text.AllowedFile(filename, Text.ImageExtensions)
  {
    assert LegacyExtensions == Text.ImageExtensions;
  }

  // ---------------------------------------------------------------- listing

  const LegacyHomePerPage: nat := 9
  const LegacyAdminPerPage: nat := 10

  /** What a legacy list page shows: the ids of its products, the count, the
      page count and the two queries it sent. */
  datatype LegacyView = LegacyView(ids: seq<Id>, totalProducts: nat, totalPages: nat, plan: Plan)

  /** A legacy list page. The page query has no ORDER BY; the model takes
      the order in which SQLite scans the table, ascending id. */
  function LegacyList(db: Db, f: Filter, like: (string, string) -> bool, perPage: nat, page: int): (v: LegacyView)
    requires WellFormed(f) && perPage > 0
    ensures v.totalProducts == |Selected(db, f, like)|
    ensures v.totalPages == TotalPages(v.totalProducts, perPage)
    ensures v.plan == MakePlan(f, perPage, page)
    ensures |v.ids| <= perPage
    ensures forall i :: 0 <= i < |v.ids| ==> v.ids[i] in Selected(db, f, like)
    ensures forall i, j :: 0 <= i < j < |v.ids| ==> v.ids[i] < v.ids[j]
    ensures v.ids == Window(Ascending(Selected(db, f, like)), perPage, Offset(page, perPage))
  {
    var all := Ascending(Selected(db, f, like));
    var total := |Selected(db, f, like)|;
    WindowOfAscending(Selected(db, f, like), all, perPage, Offset(page, perPage));
    LegacyView(Window(all, perPage, Offset(page, perPage)), total, TotalPages(total, perPage), MakePlan(f, perPage, page))
  }

  /** A window of an ascending listing is ascending and lists only its ids. */
  lemma WindowOfAscending(s: set<Id>, all: seq<Id>, limit: nat, offset: int)
    requires forall i :: 0 <= i < |all| ==> all[i] in s
    requires forall i, j :: 0 <= i < j < |all| ==> all[i] < all[j]
    ensures var w := Window(all, limit, offset);
      && (forall i :: 0 <= i < |w| ==> w[i] in s)
      && (forall i, j :: 0 <= i < j < |w| ==> w[i] < w[j])
  {
    var w := Window(all, limit, offset);
    var m := Max(offset, 0);
    forall i, j | 0 <= i < j < |w|
      ensures w[i] < w[j]
    {
      assert w[i] == all[m + i] && w[j] == all[m + j];
    }
  }

  /** Walking pages `1..totalPages` lists every selected id exactly once, in
      ascending order; any later page is empty. */
  lemma LegacyListPagesCover(db: Db, f: Filter, like: (string, string) -> bool, perPage: nat, page: int)
    requires WellFormed(f) && perPage > 0
    ensures var n := LegacyList(db, f, like, perPage, 1).totalPages;
      FirstPages(Ascending(Selected(db, f, like)), perPage, n) == Ascending(Selected(db, f, like))
    ensures page > LegacyList(db, f, like, perPage, page).totalPages ==> LegacyList(db, f, like, perPage, page).ids == []
  {
    PagesCoverRows(Ascending(Selected(db, f, like)), perPage, page);
  }

  /** The `j`-th selected id in ascending order is entry `i` of page `page`,
      and that page is within the page count. */
  lemma LegacyListFind(db: Db, f: Filter, like: (string, string) -> bool, perPage: nat, j: nat)
    returns (page: int, i: nat)
    requires WellFormed(f) && perPage > 0
    requires j < |Selected(db, f, like)|
    ensures 1 <= page <= LegacyList(db, f, like, perPage, page).totalPages
    ensures i < |LegacyList(db, f, like, perPage, page).ids|
    ensures LegacyList(db, f, like, perPage, page).ids[i] == Ascending(Selected(db, f, like))[j]
  {
    var all := Ascending(Selected(db, f, like));
    page, i := WindowFind(all, perPage, j);
    var v := LegacyList(db, f, like, perPage, page);
    assert v.ids == Window(all, perPage, Offset(page, perPage));
    assert v.totalPages == TotalPages(|all|, perPage);
  }

  /** Every selected product is on some page within the page count. */
  lemma LegacyListHasEveryMatch(db: Db, f: Filter, like: (string, string) -> bool, perPage: nat, id: Id)
    returns (page: int, i: nat)
    requires WellFormed(f) && perPage > 0
    requires id in Selected(db, f, like)
    ensures 1 <= page <= LegacyList(db, f, like, perPage, page).totalPages
    ensures i < |LegacyList(db, f, like, perPage, page).ids| && LegacyList(db, f, like, perPage, page).ids[i] == id
  {
    var all := Ascending(Selected(db, f, like));
    assert id in all;
    var j :| 0 <= j < |all| && all[j] == id;
    page, i := LegacyListFind(db, f, like, perPage, j);
  }

  /** The legacy `home` builder (app.py:86-91): `category_id = ?` whenever
      the argument is present, so `0` does filter. */
  function LegacyHomeFilter(categoryId: Option<int>): (r: Filter)
    ensures WellFormed(r)
    ensures BareCategoryIs in r.clauses <==> categoryId.Some?
  {
    TotalAritySnoc([], BareCategoryIs);
    AddIf(NoFilter, categoryId.Some?, BareCategoryIs, if categoryId.Some? then [IntParam(categoryId.value)] else [])
  }

  lemma LegacyHomeFilterMeaning(categoryId: Option<int>, p: Product, like: (string, string) -> bool)
    ensures WellFormed(LegacyHomeFilter(categoryId))
    ensures Selects(LegacyHomeFilter(categoryId), p, like) <==> (categoryId.Some? ==> p.categoryId == categoryId)
    ensures (Render(WhereSql(LegacyHomeFilter(categoryId).clauses)) == "") <==> categoryId.None?
  {
    assert WellFormed(NoFilter);
    var args := if categoryId.Some? then [IntParam(categoryId.value)] else [];
    AddIfMeaning(NoFilter, categoryId.Some?, BareCategoryIs, args, p, like);
    WhereSqlEmpty(LegacyHomeFilter(categoryId).clauses);
  }

  /** Category `0` separates the two versions: the legacy page filters on it,
      the blueprint page treats it as no filter. */
  lemma CategoryZeroDiffers(rawSearch: string)
    ensures BareCategoryIs in LegacyHomeFilter(Some(0)).clauses
    ensures CategoryIs !in Storefront.HomeFilter(Some(0), rawSearch).clauses
  {
    Storefront.HomeFilterShape(Some(0), rawSearch);
  }

  /** The legacy home page (app.py:75-114): 9 products per page, the
      count and page queries sharing one condition. */
  function LegacyHome(db: Db, categoryId: Option<int>, page: int, like: (string, string) -> bool): (v: LegacyView)
    ensures v.totalPages == TotalPages(v.totalProducts, LegacyHomePerPage)
    ensures |v.ids| <= LegacyHomePerPage
    ensures forall i :: 0 <= i < |v.ids| ==>
      v.ids[i] in db.products && (categoryId.Some? ==> db.products[v.ids[i]].categoryId == categoryId)
    ensures forall i, j :: 0 <= i < j < |v.ids| ==> v.ids[i] < v.ids[j]
    ensures v.totalProducts == |LegacyHomeMatches(db, categoryId)|
    ensures v.ids == Window(Ascending(LegacyHomeMatches(db, categoryId)), LegacyHomePerPage, Offset(page, LegacyHomePerPage))
    ensures v.plan.pageParams == v.plan.countParams + [IntParam(LegacyHomePerPage), IntParam(Offset(page, LegacyHomePerPage))]
  {
    var f := LegacyHomeFilter(categoryId);
    LegacyHomeFilterMeaning(categoryId, Product("", None, 0.0, 0, None, None), like);
    LegacyHomeSelected(db, categoryId, like);
    var v := LegacyList(db, f, like, LegacyHomePerPage, page);
    forall i | 0 <= i < |v.ids|
      ensures categoryId.Some? ==> db.products[v.ids[i]].categoryId == categoryId
    {
      LegacyHomeFilterMeaning(categoryId, db.products[v.ids[i]], like);
    }
    assert v.plan.pageParams == v.plan.pageParams[..|v.plan.countParams|] + v.plan.pageParams[|v.plan.countParams|..];
    v
  }

  /** The products the legacy home page counts and lists. */
  function LegacyHomeMatches(db: Db, categoryId: Option<int>): set<Id> {
    set k | k in db.products && (categoryId.Some? ==> db.products[k].categoryId == categoryId)
  }

  lemma LegacyHomeSelected(db: Db, categoryId: Option<int>, like: (string, string) -> bool)
    ensures WellFormed(LegacyHomeFilter(categoryId))
    ensures Selected(db, LegacyHomeFilter(categoryId), like) == LegacyHomeMatches(db, categoryId)
  {
    var f := LegacyHomeFilter(categoryId);
    LegacyHomeFilterMeaning(categoryId, Product("", None, 0.0, 0, None, None), like);
    forall k | k in db.products
      ensures k in Selected(db, f, like) <==> k in LegacyHomeMatches(db, categoryId)
    {
      LegacyHomeFilterMeaning(categoryId, db.products[k], like);
    }
  }

  /** The legacy home page is the legacy list of its filter. */
  lemma LegacyHomeIsList(db: Db, categoryId: Option<int>, page: int, like: (string, string) -> bool)
    ensures WellFormed(LegacyHomeFilter(categoryId))
    ensures LegacyHome(db, categoryId, page, like) == LegacyList(db, LegacyHomeFilter(categoryId), like, LegacyHomePerPage, page)
  {
    LegacyHomeFilterMeaning(categoryId, Product("", None, 0.0, 0, None, None), like);
  }

  /** Every product of the requested category, 0 included, is listed on some
      page of the legacy home list. */
  lemma LegacyHomeListsEveryMatch(db: Db, categoryId: Option<int>, like: (string, string) -> bool, id: Id)
    requires id in db.products && (categoryId.Some? ==> db.products[id].categoryId == categoryId)
    ensures exists page ::
      (1 <= page <= LegacyHome(db, categoryId, page, like).totalPages
       && exists i :: 0 <= i < |LegacyHome(db, categoryId, page, like).ids|
                      && LegacyHome(db, categoryId, page, like).ids[i] == id)
  {
    var f := LegacyHomeFilter(categoryId);
    LegacyHomeFilterMeaning(categoryId, db.products[id], like);
    var page, i := LegacyListHasEveryMatch(db, f, like, LegacyHomePerPage, id);
    LegacyHomeIsList(db, categoryId, page, like);
    var v := LegacyHome(db, categoryId, page, like);
    assert 1 <= page <= v.totalPages && 0 <= i < |v.ids| && v.ids[i] == id;
  }

  /** The legacy `admin_index` builder (app.py:166-180). */
  function LegacyAdminFilter(categoryId: Option<int>, rawQuery: string): (r: Filter)
    ensures WellFormed(r)
    ensures CategoryIs in r.clauses <==> categoryId.Some?
    ensures NameOrDescriptionLike in r.clauses <==> Text.Strip(rawQuery) != ""
  {
    LegacySearchFilter(categoryId, Text.Strip(rawQuery))
  }

  /** The legacy admin filter for an already stripped search text `q`. */
  function LegacySearchFilter(categoryId: Option<int>, q: string): (r: Filter)
    ensures WellFormed(r)
    ensures CategoryIs in r.clauses <==> categoryId.Some?
    ensures NameOrDescriptionLike in r.clauses <==> q != ""
  {
    var f1 := AddIf(NoFilter, categoryId.Some?, CategoryIs, if categoryId.Some? then [IntParam(categoryId.value)] else []);
    TotalAritySnoc([], CategoryIs);
    TotalAritySnoc(f1.clauses, NameOrDescriptionLike);
    AddIf(f1, q != "", NameOrDescriptionLike, [TextParam(LikePattern(q)), TextParam(LikePattern(q))])
  }

  /** The legacy admin filter selects what the blueprint one does, except
      that a present category id always filters. */
  lemma LegacyAdminFilterMeaning(categoryId: Option<int>, rawQuery: string, p: Product, like: (string, string) -> bool)
    ensures WellFormed(LegacyAdminFilter(categoryId, rawQuery))
    ensures Selects(LegacyAdminFilter(categoryId, rawQuery), p, like) <==>
      && (categoryId.Some? ==> p.categoryId == categoryId)
      && Admin.AdminWants(None, rawQuery, p, like)
    ensures (Render(WhereSql(LegacyAdminFilter(categoryId, rawQuery).clauses)) == "") <==>
      categoryId.None? && Text.Strip(rawQuery) == ""
  {
    LegacySearchMeaning(categoryId, Text.Strip(rawQuery), p, like);
  }

  lemma LegacySearchMeaning(categoryId: Option<int>, q: string, p: Product, like: (string, string) -> bool)
    ensures WellFormed(LegacySearchFilter(categoryId, q))
    ensures Selects(LegacySearchFilter(categoryId, q), p, like) <==>
      && (categoryId.Some? ==> p.categoryId == categoryId)
      && (q != "" ==> like(p.name, LikePattern(q)) || (p.description.Some? && like(p.description.value, LikePattern(q))))
    ensures (Render(WhereSql(LegacySearchFilter(categoryId, q).clauses)) == "") <==> categoryId.None? && q == ""
  {
    var args1 := if categoryId.Some? then [IntParam(categoryId.value)] else [];
    assert WellFormed(NoFilter);
    AddIfMeaning(NoFilter, categoryId.Some?, CategoryIs, args1, p, like);
    var f1 := AddIf(NoFilter, categoryId.Some?, CategoryIs, args1);
    AddIfMeaning(f1, q != "", NameOrDescriptionLike, [TextParam(LikePattern(q)), TextParam(LikePattern(q))], p, like);
    var f := LegacySearchFilter(categoryId, q);
    var a: seq<Clause> := if categoryId.Some? then [CategoryIs] else [];
    var b: seq<Clause> := if q != "" then [NameOrDescriptionLike] else [];
    assert f.clauses == a + b;
    WhereSqlEmpty(f.clauses);
  }

  /** The legacy admin list (app.py:155-208): 10 products per page. */
  function LegacyAdminIndex(db: Db, categoryId: Option<int>, rawQuery: string, page: int, like: (string, string) -> bool): (v: LegacyView)
    ensures v.totalPages == TotalPages(v.totalProducts, LegacyAdminPerPage)
    ensures |v.ids| <= LegacyAdminPerPage
    ensures forall i :: 0 <= i < |v.ids| ==>
      && v.ids[i] in db.products
      && (categoryId.Some? ==> db.products[v.ids[i]].categoryId == categoryId)
      && Admin.AdminWants(None, rawQuery, db.products[v.ids[i]], like)
    ensures forall i, j :: 0 <= i < j < |v.ids| ==> v.ids[i] < v.ids[j]
    ensures v.totalProducts == |LegacyAdminMatches(db, categoryId, rawQuery, like)|
    ensures v.ids == Window(Ascending(LegacyAdminMatches(db, categoryId, rawQuery, like)), LegacyAdminPerPage, Offset(page, LegacyAdminPerPage))
    ensures v.plan.pageParams == v.plan.countParams + [IntParam(LegacyAdminPerPage), IntParam(Offset(page, LegacyAdminPerPage))]
  {
    var f := LegacyAdminFilter(categoryId, rawQuery);
    LegacyAdminFilterMeaning(categoryId, rawQuery, Product("", None, 0.0, 0, None, None), like);
    LegacyAdminSelected(db, categoryId, rawQuery, like);
    var v := LegacyList(db, f, like, LegacyAdminPerPage, page);
    forall i | 0 <= i < |v.ids|
      ensures && (categoryId.Some? ==> db.products[v.ids[i]].categoryId == categoryId)
              && Admin.AdminWants(None, rawQuery, db.products[v.ids[i]], like)
    {
      LegacyAdminFilterMeaning(categoryId, rawQuery, db.products[v.ids[i]], like);
    }
    assert v.plan.pageParams == v.plan.pageParams[..|v.plan.countParams|] + v.plan.pageParams[|v.plan.countParams|..];
    v
  }

  /** The products the legacy admin page counts and lists. */
  function LegacyAdminMatches(db: Db, categoryId: Option<int>, rawQuery: string, like: (string, string) -> bool): set<Id> {
    set k | k in db.products
      && (categoryId.Some? ==> db.products[k].categoryId == categoryId)
      && Admin.AdminWants(None, rawQuery, db.products[k], like)
  }

  lemma LegacyAdminSelected(db: Db, categoryId: Option<int>, rawQuery: string, like: (string, string) -> bool)
    ensures WellFormed(LegacyAdminFilter(categoryId, rawQuery))
    ensures Selected(db, LegacyAdminFilter(categoryId, rawQuery), like) == LegacyAdminMatches(db, categoryId, rawQuery, like)
  {
    var f := LegacyAdminFilter(categoryId, rawQuery);
    LegacyAdminFilterMeaning(categoryId, rawQuery, Product("", None, 0.0, 0, None, None), like);
    forall k | k in db.products
      ensures k in Selected(db, f, like) <==> k in LegacyAdminMatches(db, categoryId, rawQuery, like)
    {
      LegacyAdminFilterMeaning(categoryId, rawQuery, db.products[k], like);
    }
  }

  /** The legacy admin page is the legacy list of its filter. */
  lemma LegacyAdminIsList(db: Db, categoryId: Option<int>, rawQuery: string, page: int, like: (string, string) -> bool)
    ensures WellFormed(LegacyAdminFilter(categoryId, rawQuery))
    ensures LegacyAdminIndex(db, categoryId, rawQuery, page, like) ==
      LegacyList(db, LegacyAdminFilter(categoryId, rawQuery), like, LegacyAdminPerPage, page)
  {
    LegacyAdminFilterMeaning(categoryId, rawQuery, Product("", None, 0.0, 0, None, None), like);
  }

  /** Every product that matches the present category and the query is
      listed on some page of the legacy admin list. */
  lemma LegacyAdminListsEveryMatch(db: Db, categoryId: Option<int>, rawQuery: string, like: (string, string) -> bool, id: Id)
    requires id in db.products
    requires categoryId.Some? ==> db.products[id].categoryId == categoryId
    requires Admin.AdminWants(None, rawQuery, db.products[id], like)
    ensures exists page ::
      (1 <= page <= LegacyAdminIndex(db, categoryId, rawQuery, page, like).totalPages
       && exists i :: 0 <= i < |LegacyAdminIndex(db, categoryId, rawQuery, page, like).ids|
                      && LegacyAdminIndex(db, categoryId, rawQuery, page, like).ids[i] == id)
  {
    var f := LegacyAdminFilter(categoryId, rawQuery);
    LegacyAdminFilterMeaning(categoryId, rawQuery, db.products[id], like);
    var page, i := LegacyListHasEveryMatch(db, f, like, LegacyAdminPerPage, id);
    LegacyAdminIsList(db, categoryId, rawQuery, page, like);
    var v := LegacyAdminIndex(db, categoryId, rawQuery, page, like);
    assert 1 <= page <= v.totalPages && 0 <= i < |v.ids| && v.ids[i] == id;
  }

  // ---------------------------------------------------------------- product image

  /** The single `image` part of the legacy forms: the client's file name
      and `secure_filename` of it. */
  datatype LegacyUpload = LegacyUpload(filename: string, safeName: string)

  /** `file and allowed_file(file.filename)`. */
  predicate ValidUpload(u: Option<LegacyUpload>) {
    u.Some? && u.value.filename != "" && LegacyAllowedFile(u.value.filename)
  }

  /** Python truthiness of an optional text value. */
  predicate Present(t: Option<string>) {
    t.Some? && t.value != ""
  }

  /** `os.path.join('static', url)`: where a stored `image_url` lives. */
  function StaticPath(url: string): string {
    "static/" + url
  }

  /** `os.path.join('static/uploads', name)`: where an upload is saved. */
  function SavedPath(safeName: string): string {
    "static/uploads/" + safeName
  }

  /** The file found through a stored upload URL is the file that was saved. */
  lemma StaticPathOfUploadUrl(safeName: string)
    requires '/' !in safeName && '\\' !in safeName
    ensures StaticPath(Text.UploadUrl(safeName)) == SavedPath(safeName)
  {
  }

  datatype ImageChange = ImageChange(url: Option<string>, files: set<string>)

  /** The image decision of the legacy edit (app.py:297-333): a valid upload
      wins, removing the old file when there is one and storing the new
      path; otherwise a set delete flag removes an existing image and clears
      the URL; otherwise nothing changes. */
  function EditImage(prevUrl: Option<string>, upload: Option<LegacyUpload>, deleteFlag: Option<string>, files: set<string>)
    : (r: ImageChange)
    requires upload.Some? ==> '/' !in upload.value.safeName && '\\' !in upload.value.safeName
    ensures ValidUpload(upload) ==> r.url == Some(Text.UploadUrl(upload.value.safeName))
    ensures ValidUpload(upload) ==> SavedPath(upload.value.safeName) in r.files
    ensures ValidUpload(upload) && Present(prevUrl) && StaticPath(prevUrl.value) != SavedPath(upload.value.safeName) ==>
      StaticPath(prevUrl.value) !in r.files
    ensures ValidUpload(upload) ==> r.files - {SavedPath(upload.value.safeName)} <= files
    ensures ValidUpload(upload) ==> forall x ::
      x != SavedPath(upload.value.safeName) && !(Present(prevUrl) && x == StaticPath(prevUrl.value)) ==>
        (x in r.files <==> x in files)
    ensures !ValidUpload(upload) && Present(deleteFlag) && Present(prevUrl) ==>
      r.url.None? && r.files == files - {StaticPath(prevUrl.value)}
    ensures !ValidUpload(upload) && !(Present(deleteFlag) && Present(prevUrl)) ==> r == ImageChange(prevUrl, files)
  {
    if ValidUpload(upload) then
      var kept := if Present(prevUrl) then files - {StaticPath(prevUrl.value)} else files;
      ImageChange(Some(Text.UploadUrl(upload.value.safeName)), kept + {SavedPath(upload.value.safeName)})
    else if Present(deleteFlag) && Present(prevUrl) then
      ImageChange(None, files - {StaticPath(prevUrl.value)})
    else ImageChange(prevUrl, files)
  }

  /** A product's image reference keeps pointing at an existing file across
      an edit, whichever branch the decision takes. */
  lemma EditImageKeepsReference(prevUrl: Option<string>, upload: Option<LegacyUpload>, deleteFlag: Option<string>, files: set<string>)
    requires upload.Some? ==> '/' !in upload.value.safeName && '\\' !in upload.value.safeName
    requires prevUrl.Some? ==> StaticPath(prevUrl.value) in files
    ensures var r := EditImage(prevUrl, upload, deleteFlag, files);
      r.url.Some? ==> StaticPath(r.url.value) in r.files
  {
    if ValidUpload(upload) {
      StaticPathOfUploadUrl(upload.value.safeName);
    }
  }

  // ---------------------------------------------------------------- categories

  datatype LegacyOutcome = LegacyOutcome(db: Db, files: set<string>, committed: bool)

  /** The image files of the category's products that have an `image_url`. */
  function CategoryImagePaths(db: Db, cid: Id): (r: set<string>)
    ensures forall x :: x in r <==>
      exists k :: k in db.products && db.products[k].categoryId == Some(cid) && db.products[k].imageUrl.Some?
                  && x == StaticPath(db.products[k].imageUrl.value)
  {
    set k | k in db.products && db.products[k].categoryId == Some(cid) && db.products[k].imageUrl.Some?
      :: StaticPath(db.products[k].imageUrl.value)
  }

  /** The legacy category delete (app.py:227-249): remove the image files,
      then DELETE the products and the category and commit. There is no
      error handling: a failing statement aborts the request before the
      commit, leaving the database as it was and the files removed. */
  function LegacyDeleteCategory(db: Db, files: set<string>, cid: Id, dbFails: bool): (r: LegacyOutcome)
    ensures r.files == files - CategoryImagePaths(db, cid)
    ensures r.committed <==> !dbFails
    ensures !r.committed ==> r.db == db
    ensures r.committed ==>
      && (forall k :: k in r.db.products <==> k in db.products && db.products[k].categoryId != Some(cid))
      && (forall k :: k in r.db.products ==> r.db.products[k] == db.products[k])
      && r.db.categories.Keys == db.categories.Keys - {cid}
      && (forall k :: k in r.db.categories ==> r.db.categories[k] == db.categories[k])
      && (!db.foreignKeys ==> r.db.images == db.images)
      && (db.foreignKeys ==> forall k :: k in r.db.images <==> k in db.images && db.images[k].productId !in ProductsIn(db, cid))
      && (forall k :: k in r.db.images ==> r.db.images[k] == db.images[k])
      && r.db == db.(products := r.db.products, categories := r.db.categories, images := r.db.images)
    ensures Consistent(db) ==> Consistent(r.db)
  {
    var rest := files - CategoryImagePaths(db, cid);
    if dbFails then LegacyOutcome(db, rest, false)
    else
      var db1 := DeleteProductRows(db, ProductsIn(db, cid));
      assert ProductsIn(db1, cid) == {};
      var db2 := DeleteCategoryRow(db1, cid);
      LegacyOutcome(db2, rest, true)
  }

  /** Unlike the blueprint version, the legacy delete leaves the image rows
      of the deleted products behind when foreign keys are not enforced. */
  lemma LegacyDeleteLeavesOrphans(db: Db, files: set<string>, cid: Id, k: Id)
    requires !db.foreignKeys
    requires k in db.images && db.images[k].productId in ProductsIn(db, cid)
    ensures var r := LegacyDeleteCategory(db, files, cid, false);
      k in r.db.images && r.db.images[k].productId !in r.db.products
  {
  }
}

=== FILE: listing.dfy ===
/** The product list both list pages render: every product the filter
    selects, newest first, with its category name from the LEFT JOIN and the
    URL of its lowest-id image, cut into pages of `perPage` rows. */
module Listing {
  import opened Common
  import opened Schema
  import opened Images
  import opened Query

  /** One list item: `p.*`, `c.name AS category_name` and `primary_image_url`. */
  datatype Row = Row(id: Id, product: Product, categoryName: Option<string>, thumbnail: Option<string>)

  /** `LEFT JOIN categories c ON p.category_id = c.id`: the name when the
      product points at an existing category, `NULL` otherwise. The join is on
      the categories' key, so it never adds or drops a product row. */
  function CategoryName(db: Db, p: Product): (r: Option<string>)
    ensures r.Some? <==> p.categoryId.Some? && p.categoryId.value in db.categories
    ensures r.Some? ==> r.value == db.categories[p.categoryId.value].name
  {
    match p.categoryId
    case None => None
    case Some(c) => if c in db.categories then Some(db.categories[c].name) else None
  }

  function RowOf(db: Db, id: Id): Row
    requires id in db.products
  {
    Row(id, db.products[id], CategoryName(db, db.products[id]), Thumbnail(db.images, id))
  }

  /** The ids of the products the WHERE fragment keeps. */
  function Selected(db: Db, f: Filter, like: (string, string) -> bool): (r: set<Id>)
    requires WellFormed(f)
    ensures forall k :: k in r <==> k in db.products && Selects(f, db.products[k], like)
  {
    set k | k in db.products && Selects(f, db.products[k], like)
  }

  function RowsOf(db: Db, ids: seq<Id>): (r: seq<Row>)
    requires forall i :: 0 <= i < |ids| ==> ids[i] in db.products
    ensures |r| == |ids|
    ensures forall i :: 0 <= i < |ids| ==> r[i] == RowOf(db, ids[i]) && r[i].id == ids[i]
  {
    if ids == [] then [] else [RowOf(db, ids[0])] + RowsOf(db, ids[1..])
  }

  /** The rows of a set of products, `ORDER BY p.id DESC`. */
  function RowsDescending(db: Db, s: set<Id>): (r: seq<Row>)
    requires forall k :: k in s ==> k in db.products
    ensures |r| == |s|
    ensures forall i :: 0 <= i < |r| ==> r[i].id in s && r[i] == RowOf(db, r[i].id)
    ensures forall k :: k in s ==> exists i :: 0 <= i < |r| && r[i].id == k
    ensures forall i, j :: 0 <= i < j < |r| ==> r[i].id > r[j].id
  {
    var ids := Descending(s);
    var r := RowsOf(db, ids);
    RowsCover(db, s, ids, r);
    r
  }

  /** Every id of the listing has its row. */
  lemma RowsCover(db: Db, s: set<Id>, ids: seq<Id>, r: seq<Row>)
    requires forall x :: x in s ==> x in ids
    requires |r| == |ids| && forall i :: 0 <= i < |ids| ==> r[i].id == ids[i]
    ensures forall k :: k in s ==> exists i :: 0 <= i < |r| && r[i].id == k
  {
    forall k | k in s
      ensures exists i :: 0 <= i < |r| && r[i].id == k
    {
      var i :| 0 <= i < |ids| && ids[i] == k;
      assert r[i].id == k;
    }
  }

  /** All selected products, newest first. */
  function Ordered(db: Db, f: Filter, like: (string, string) -> bool): (r: seq<Row>)
    requires WellFormed(f)
    ensures |r| == |Selected(db, f, like)|
    ensures forall i :: 0 <= i < |r| ==> r[i].id in Selected(db, f, like) && r[i] == RowOf(db, r[i].id)
    ensures forall k :: k in Selected(db, f, like) ==> exists i :: 0 <= i < |r| && r[i].id == k
    ensures forall i, j :: 0 <= i < j < |r| ==> r[i].id > r[j].id
  {
    RowsDescending(db, Selected(db, f, like))
  }

  /** What a list page shows: its rows, the product count, the page count,
      and the two queries it sent. */
  datatype View = View(rows: seq<Row>, totalProducts: nat, totalPages: nat, plan: Plan)

  /** One page of a product list (app/admin/routes.py:90-110,
      app/main/routes.py:31-51): the count query and the page query share the
      filter; the page holds the selected products in descending id order
      from offset `(page - 1) * perPage`. */
  function ListPage(db: Db, f: Filter, like: (string, string) -> bool, perPage: nat, page: int): (v: View)
    requires WellFormed(f) && perPage > 0
    ensures v.totalProducts == |Selected(db, f, like)|
    ensures v.totalPages == TotalPages(v.totalProducts, perPage)
    ensures v.plan == MakePlan(f, perPage, page)
    ensures |v.rows| <= perPage
    ensures forall i :: 0 <= i < |v.rows| ==>
      v.rows[i].id in Selected(db, f, like) && v.rows[i] == RowOf(db, v.rows[i].id)
    ensures forall i, j :: 0 <= i < j < |v.rows| ==> v.rows[i].id > v.rows[j].id
    ensures v.rows == Window(Ordered(db, f, like), perPage, Offset(page, perPage))
  {
    var all := Ordered(db, f, like);
    var total := |Selected(db, f, like)|;
    WindowOfOrdered(db, Selected(db, f, like), all, perPage, Offset(page, perPage));
    View(Window(all, perPage, Offset(page, perPage)), total, TotalPages(total, perPage), MakePlan(f, perPage, page))
  }

  /** A window of a newest-first listing is itself newest first, with
      each row being the stored row of one of the listed ids. */
  lemma WindowOfOrdered(db: Db, s: set<Id>, all: seq<Row>, limit: nat, offset: int)
    requires forall k :: k in s ==> k in db.products
    requires forall i :: 0 <= i < |all| ==> all[i].id in s && all[i] == RowOf(db, all[i].id)
    requires forall i, j :: 0 <= i < j < |all| ==> all[i].id > all[j].id
    ensures var w := Window(all, limit, offset);
      && (forall i :: 0 <= i < |w| ==> w[i].id in s && w[i] == RowOf(db, w[i].id))
      && (forall i, j :: 0 <= i < j < |w| ==> w[i].id > w[j].id)
  {
    var w := Window(all, limit, offset);
    var m := Max(offset, 0);
    forall i, j | 0 <= i < j < |w|
      ensures w[i].id > w[j].id
    {
      assert w[i] == all[m + i] && w[j] == all[m + j];
    }
  }

  /** Walking pages `1..totalPages` lists every selected product exactly
      once, newest first; any later page is empty. */
  lemma ListPagesCover(db: Db, f: Filter, like: (string, string) -> bool, perPage: nat, page: int)
    requires WellFormed(f) && perPage > 0
    ensures var n := ListPage(db, f, like, perPage, 1).totalPages;
      FirstPages(Ordered(db, f, like), perPage, n) == Ordered(db, f, like)
    ensures page > ListPage(db, f, like, perPage, page).totalPages ==> ListPage(db, f, like, perPage, page).rows == []
  {
    PagesCoverRows(Ordered(db, f, like), perPage, page);
  }

  /** The `j`-th selected product, newest first, is row `i` of page `page`,
      whose offset is `j - i`, and that page is within the page
      count. */
  lemma ListPageFind(db: Db, f: Filter, like: (string, string) -> bool, perPage: nat, j: nat)
    returns (page: int, i: nat)
    requires WellFormed(f) && perPage > 0
    requires j < |Selected(db, f, like)|
    ensures i < perPage && j == Offset(page, perPage) + i
    ensures 1 <= page <= ListPage(db, f, like, perPage, page).totalPages
    ensures i < |ListPage(db, f, like, perPage, page).rows|
    ensures ListPage(db, f, like, perPage, page).rows[i] == Ordered(db, f, like)[j]
  {
    var all := Ordered(db, f, like);
    page, i := WindowFind(all, perPage, j);
    var v := ListPage(db, f, like, perPage, page);
    assert v.rows == Window(all, perPage, Offset(page, perPage));
    assert v.totalPages == TotalPages(|all|, perPage);
  }

  /** Under the primary-image invariant, the thumbnail of every listed
      product is its primary image, and a product without images has none. */
  lemma ListThumbnailsArePrimary(db: Db, f: Filter, like: (string, string) -> bool, perPage: nat, page: int)
    requires WellFormed(f) && perPage > 0
    requires PrimaryIsFirst(db.images)
    ensures var rows := ListPage(db, f, like, perPage, page).rows;
      forall i :: 0 <= i < |rows| ==>
        && (rows[i].thumbnail.None? <==> IdsOf(db.images, rows[i].id) == {})
        && (forall k :: k in db.images && db.images[k].productId == rows[i].id && db.images[k].isPrimary ==>
              rows[i].thumbnail == Some(db.images[k].url))
  {
    var rows := ListPage(db, f, like, perPage, page).rows;
    forall i | 0 <= i < |rows|
      ensures forall k :: k in db.images && db.images[k].productId == rows[i].id && db.images[k].isPrimary ==>
        rows[i].thumbnail == Some(db.images[k].url)
    {
      ThumbnailIsPrimary(db.images, rows[i].id);
    }
  }
}

=== FILE: query.dfy ===
/** The shared shape of the product list queries: a list of WHERE conditions
    with their positional parameters, the `WHERE ...` fragment that the count
    query and the page query both embed, the `LIMIT ? OFFSET ?` page window,
    and the page-count arithmetic. The SQL text itself is kept only as far as
    its `?` placeholders go; what a condition means is given by `Holds`, with
    SQLite's `LIKE` left as a parameter. */
module Query {
  import opened Common
  import opened Schema

  /** A positional query parameter. */
  datatype Param = IntParam(n: int) | TextParam(t: string)

  /** The WHERE conditions the list pages use. */
  datatype Clause =
    | StockNonNegative       // p.stock >= 0
    | CategoryIs             // p.category_id = ?
    | NameOrDescriptionLike  // (p.name LIKE ? OR p.description LIKE ?)
    | NameLike               // p.name LIKE ?
    | BareCategoryIs         // category_id = ?  (no table alias)

  /** SQL text as written by the builders: literal text, or a `?` placeholder. */
  datatype Piece = Sql(text: string) | Hole

  function Text(p: Piece): string {
    match p
    case Sql(t) => t
    case Hole => "?"
  }

  function Render(ps: seq<Piece>): string {
    if ps == [] then "" else Text(ps[0]) + Render(ps[1..])
  }

  /** Number of `?` placeholders in a piece of SQL. */
  function Placeholders(sql: string): nat {
    multiset(sql)['?']
  }

  function Holes(ps: seq<Piece>): nat {
    if ps == [] then 0 else (if ps[0].Hole? then 1 else 0) + Holes(ps[1..])
  }

  /** No literal piece contains a question mark. */
  predicate Clean(ps: seq<Piece>) {
    forall i :: 0 <= i < |ps| ==> ps[i].Sql? ==> '?' !in ps[i].text
  }

  lemma PlaceholdersConcat(a: string, b: string)
    ensures Placeholders(a + b) == Placeholders(a) + Placeholders(b)
  {
  }

  lemma TextPlaceholders(p: Piece)
    requires p.Sql? ==> '?' !in p.text
    ensures Placeholders(Text(p)) == if p.Hole? then 1 else 0
  {
  }

  /** The rendered text has one `?` per hole when the literal pieces have none. */
  lemma {:induction false} RenderPlaceholders(ps: seq<Piece>)
    requires Clean(ps)
    ensures Placeholders(Render(ps)) == Holes(ps)
    decreases |ps|
  {
    if ps != [] {
      assert Clean(ps[1..]) by {
        forall i | 0 <= i < |ps[1..]| && ps[1..][i].Sql?
          ensures '?' !in ps[1..][i].text
        {
          assert ps[1..][i] == ps[i + 1];
        }
      }
      RenderPlaceholders(ps[1..]);
      TextPlaceholders(ps[0]);
      PlaceholdersConcat(Text(ps[0]), Render(ps[1..]));
    }
  }

  lemma {:induction false} CleanConcat(a: seq<Piece>, b: seq<Piece>)
    requires Clean(a) && Clean(b)
    ensures Clean(a + b)
    ensures Holes(a + b) == Holes(a) + Holes(b)
    decreases |a|
  {
    if a != [] {
      assert (a + b)[1..] == a[1..] + b;
      assert Clean(a[1..]) by {
        forall i | 0 <= i < |a[1..]| && a[1..][i].Sql?
          ensures '?' !in a[1..][i].text
        {
          assert a[1..][i] == a[i + 1];
        }
      }
      CleanConcat(a[1..], b);
    } else {
      assert a + b == b;
    }
  }

  /** The SQL text of a condition. */
  function ClauseSql(c: Clause): seq<Piece> {
    match c
    case StockNonNegative => [Sql("p.stock >= 0")]
    case CategoryIs => [Sql("p.category_id = "), Hole]
    case NameOrDescriptionLike => [Sql("(p.name LIKE "), Hole, Sql(" OR p.description LIKE "), Hole, Sql(")")]
    case NameLike => [Sql("p.name LIKE "), Hole]
    case BareCategoryIs => [Sql("category_id = "), Hole]
  }

  /** Number of parameters a condition consumes. */
  function Arity(c: Clause): nat {
    match c
    case StockNonNegative => 0
    case NameOrDescriptionLike => 2
    case _ => 1
  }

  function TotalArity(cs: seq<Clause>): nat {
    if cs == [] then 0 else Arity(cs[0]) + TotalArity(cs[1..])
  }

  /** Each condition's text has one placeholder per parameter it consumes. */
  lemma ClauseHoles(c: Clause)
    ensures Clean(ClauseSql(c))
    ensures Holes(ClauseSql(c)) == Arity(c)
  {
    match c
    case StockNonNegative =>
      assert '?' !in "p.stock >= 0";
    case CategoryIs =>
      TextThenHole("p.category_id = ");
    case NameOrDescriptionLike =>
      TwoHoles("(p.name LIKE ", " OR p.description LIKE ", ")");
    case NameLike =>
      TextThenHole("p.name LIKE ");
    case BareCategoryIs =>
      TextThenHole("category_id = ");
  }

  /** Literal, hole, literal, hole, literal. */
  lemma TwoHoles(t: string, u: string, v: string)
    requires '?' !in t && '?' !in u && '?' !in v
    ensures Clean([Sql(t), Hole, Sql(u), Hole, Sql(v)])
    ensures Holes([Sql(t), Hole, Sql(u), Hole, Sql(v)]) == 2
  {
    var p5: seq<Piece> := [Sql(v)];
    assert p5[1..] == [];
    assert Holes(p5) == 0;
    var p4 := [Hole] + p5;
    assert p4[1..] == p5;
    assert Holes(p4) == 1;
    var p3 := [Sql(u)] + p4;
    assert p3[1..] == p4;
    assert Holes(p3) == 1;
    var p2 := [Hole] + p3;
    assert p2[1..] == p3;
    assert Holes(p2) == 2;
    var p1 := [Sql(t)] + p2;
    assert p1[1..] == p2;
    assert Holes(p1) == 2;
    assert p1 == [Sql(t), Hole, Sql(u), Hole, Sql(v)];
    forall i | 0 <= i < |p1| && p1[i].Sql?
      ensures '?' !in p1[i].text
    {
      assert p1[i].text == t || p1[i].text == u || p1[i].text == v;
    }
  }

  /** A literal followed by one placeholder. */
  lemma TextThenHole(t: string)
    requires '?' !in t
    ensures Clean([Sql(t), Hole])
    ensures Holes([Sql(t), Hole]) == 1
  {
    assert [Sql(t), Hole][1..] == [Hole];
    assert [Hole][1..] == [];
  }

  const AndSep: Piece := Sql(" AND ")

  /** Python's `' AND '.join(...)` over the conditions' texts. */
  function JoinClauses(cs: seq<Clause>): seq<Piece> {
    if cs == [] then []
    else if |cs| == 1 then ClauseSql(cs[0])
    else ClauseSql(cs[0]) + [AndSep] + JoinClauses(cs[1..])
  }

  /** `'WHERE ' + ' AND '.join(clauses) if clauses else ''`. */
  function WhereSql(cs: seq<Clause>): seq<Piece> {
    if cs == [] then [] else [Sql("WHERE ")] + JoinClauses(cs)
  }

  /** The fragment is empty exactly when no condition was added. */
  lemma WhereSqlEmpty(cs: seq<Clause>)
    ensures Render(WhereSql(cs)) == "" <==> cs == []
  {
    if cs != [] {
      var w := WhereSql(cs);
      assert w[0] == Sql("WHERE ");
      assert |Render(w)| >= 6;
    }
  }

  lemma {:induction false} JoinHoles(cs: seq<Clause>)
    ensures Clean(JoinClauses(cs))
    ensures Holes(JoinClauses(cs)) == TotalArity(cs)
    decreases |cs|
  {
    if |cs| == 1 {
      ClauseHoles(cs[0]);
      assert cs[1..] == [];
    } else if |cs| > 1 {
      ClauseHoles(cs[0]);
      JoinHoles(cs[1..]);
      assert '?' !in " AND ";
      CleanConcat(ClauseSql(cs[0]), [AndSep]);
      CleanConcat(ClauseSql(cs[0]) + [AndSep], JoinClauses(cs[1..]));
    }
  }

  /** The WHERE fragment has one hole per condition parameter and no stray `?`. */
  lemma WhereHoles(cs: seq<Clause>)
    ensures Clean(WhereSql(cs))
    ensures Holes(WhereSql(cs)) == TotalArity(cs)
  {
    if cs != [] {
      JoinHoles(cs);
      assert '?' !in "WHERE ";
      assert [Sql("WHERE ")][1..] == [];
      CleanConcat([Sql("WHERE ")], JoinClauses(cs));
    }
  }

  /** The WHERE fragment has exactly one placeholder per condition parameter. */
  lemma WherePlaceholders(cs: seq<Clause>)
    ensures Placeholders(Render(WhereSql(cs))) == TotalArity(cs)
  {
    WhereHoles(cs);
    RenderPlaceholders(WhereSql(cs));
  }

  /** The conditions a list page chose and the parameters it bound for them. */
  datatype Filter = Filter(clauses: seq<Clause>, params: seq<Param>)

  /** Every placeholder of the WHERE fragment has exactly one parameter. */
  predicate WellFormed(f: Filter) {
    TotalArity(f.clauses) == |f.params|
  }

  /** `offset = (page - 1) * per_page`; `page` is not clamped, so it may be
      zero or negative. */
  function Offset(page: int, perPage: nat): (r: int)
    ensures page >= 1 ==> r >= 0
  {
    ScaleSign(page - 1, perPage);
    (page - 1) * perPage
  }

  lemma ScaleSign(a: int, b: nat)
    ensures a >= 0 ==> a * b >= 0
    ensures a <= 0 ==> a * b <= 0
  {
  }

  /** `math.ceil(total / per_page)` in integer arithmetic. */
  function TotalPages(total: nat, perPage: nat): (r: nat)
    requires perPage > 0
    ensures r == 0 <==> total == 0
    ensures r > 0 ==> (r - 1) * perPage < total <= r * perPage
  {
    var q := (total + perPage - 1) / perPage;
    var rem := (total + perPage - 1) % perPage;
    assert total + perPage - 1 == q * perPage + rem;
    assert (q - 1) * perPage == q * perPage - perPage;
    assert (q + 1) * perPage == q * perPage + perPage;
    q
  }

  const LimitOffset: seq<Piece> := [Sql(" LIMIT "), Hole, Sql(" OFFSET "), Hole]

  /** What a list endpoint sends to the database: the shared WHERE fragment,
      the count query's parameters, and the page query's parameters. */
  datatype Plan = Plan(whereSql: seq<Piece>, countParams: seq<Param>, pageParams: seq<Param>)

  /** ` LIMIT ? OFFSET ?` has two holes and no stray `?`. */
  lemma LimitOffsetHoles()
    ensures Clean(LimitOffset)
    ensures Holes(LimitOffset) == 2
  {
    TextThenHole(" LIMIT ");
    TextThenHole(" OFFSET ");
    CleanConcat([Sql(" LIMIT "), Hole], [Sql(" OFFSET "), Hole]);
    assert LimitOffset == [Sql(" LIMIT "), Hole] + [Sql(" OFFSET "), Hole];
  }

  /** The page query's text has two more placeholders than the fragment. */
  lemma PagePlaceholders(cs: seq<Clause>)
    ensures Placeholders(Render(WhereSql(cs) + LimitOffset)) == TotalArity(cs) + 2
  {
    WhereHoles(cs);
    LimitOffsetHoles();
    CleanConcat(WhereSql(cs), LimitOffset);
    RenderPlaceholders(WhereSql(cs) + LimitOffset);
  }

  /** The count query binds the condition parameters; the page query binds
      them followed by the page size and the offset. */
  function MakePlan(f: Filter, perPage: nat, page: int): (r: Plan)
    requires WellFormed(f)
    ensures r.whereSql == WhereSql(f.clauses) && r.countParams == f.params
    ensures Placeholders(Render(r.whereSql)) == |r.countParams|
    ensures Placeholders(Render(r.whereSql + LimitOffset)) == |r.pageParams|
    ensures |r.pageParams| == |r.countParams| + 2
    ensures r.pageParams[..|r.countParams|] == r.countParams
    ensures r.pageParams[|r.countParams|..] == [IntParam(perPage), IntParam(Offset(page, perPage))]
  {
    WherePlaceholders(f.clauses);
    PagePlaceholders(f.clauses);
    var pageParams := f.params + [IntParam(perPage), IntParam(Offset(page, perPage))];
    assert pageParams[..|f.params|] == f.params;
    Plan(WhereSql(f.clauses), f.params, pageParams)
  }

  // ---------------------------------------------------------------- meaning

  /** What one condition means for a product row, given its parameters.
      SQL `NULL` in `description` makes that `LIKE` unknown, which `OR`
      turns into the other operand. */
  function Holds(c: Clause, args: seq<Param>, p: Product, like: (string, string) -> bool): bool
    requires |args| == Arity(c)
  {
    match c
    case StockNonNegative => p.stock >= 0
    case CategoryIs => args[0].IntParam? && p.categoryId == Some(args[0].n)
    case BareCategoryIs => args[0].IntParam? && p.categoryId == Some(args[0].n)
    case NameOrDescriptionLike =>
      args[0].TextParam? && args[1].TextParam? &&
      (like(p.name, args[0].t) || (p.description.Some? && like(p.description.value, args[1].t)))
    case NameLike => args[0].TextParam? && like(p.name, args[0].t)
  }

  /** The conjunction of the conditions, each reading its own parameters. */
  function Eval(cs: seq<Clause>, ps: seq<Param>, p: Product, like: (string, string) -> bool): bool
    requires TotalArity(cs) == |ps|
  {
    if cs == [] then true
    else
      var k := Arity(cs[0]);
      Holds(cs[0], ps[..k], p, like) && Eval(cs[1..], ps[k..], p, like)
  }

  predicate Selects(f: Filter, p: Product, like: (string, string) -> bool)
    requires WellFormed(f)
  {
    Eval(f.clauses, f.params, p, like)
  }

  /** Adding a condition at the end narrows the selection by exactly that condition. */
  lemma {:induction false} EvalSnoc(cs: seq<Clause>, ps: seq<Param>, c: Clause, args: seq<Param>,
                                    p: Product, like: (string, string) -> bool)
    requires TotalArity(cs) == |ps| && |args| == Arity(c)
    ensures TotalArity(cs + [c]) == |ps + args|
    ensures Eval(cs + [c], ps + args, p, like) == (Eval(cs, ps, p, like) && Holds(c, args, p, like))
    decreases |cs|
  {
    if cs == [] {
      assert [] + [c] == [c];
      assert [c][1..] == [];
      assert ([] + args)[..Arity(c)] == args;
      assert TotalArity([c]) == Arity(c) + TotalArity([]);
    } else {
      var k := Arity(cs[0]);
      assert (cs + [c])[0] == cs[0];
      assert (cs + [c])[1..] == cs[1..] + [c];
      assert (ps + args)[..k] == ps[..k];
      assert (ps + args)[k..] == ps[k..] + args;
      EvalSnoc(cs[1..], ps[k..], c, args, p, like);
    }
  }

  // ---------------------------------------------------------------- builders

  /** The filter before any condition is added. */
  const NoFilter: Filter := Filter([], [])

  /** One builder step: `if b: where_clauses.append(c); params.extend(args)`. */
  function AddIf(f: Filter, b: bool, c: Clause, args: seq<Param>): (r: Filter)
    ensures b ==> r.clauses == f.clauses + [c] && r.params == f.params + args
    ensures !b ==> r == f
  {
    if b then Filter(f.clauses + [c], f.params + args) else f
  }

  lemma {:induction false} TotalAritySnoc(cs: seq<Clause>, c: Clause)
    ensures TotalArity(cs + [c]) == TotalArity(cs) + Arity(c)
    decreases |cs|
  {
    if cs == [] {
      assert [] + [c] == [c];
      assert [c][1..] == [];
    } else {
      assert (cs + [c])[1..] == cs[1..] + [c];
      TotalAritySnoc(cs[1..], c);
    }
  }

  /** A builder step keeps the parameters in step with the placeholders and
      narrows the selection by exactly the added condition. */
  lemma AddIfMeaning(f: Filter, b: bool, c: Clause, args: seq<Param>, p: Product, like: (string, string) -> bool)
    requires WellFormed(f) && (b ==> |args| == Arity(c))
    ensures WellFormed(AddIf(f, b, c, args))
    ensures Selects(AddIf(f, b, c, args), p, like) <==> Selects(f, p, like) && (b ==> Holds(c, args, p, like))
  {
    if b {
      TotalAritySnoc(f.clauses, c);
      EvalSnoc(f.clauses, f.params, c, args, p, like);
    }
  }

  /** `f'%{q}%'`: the LIKE pattern of a search text. */
  function LikePattern(q: string): (r: string)
    ensures |r| == |q| + 2 && r[0] == '%' && r[|r| - 1] == '%' && r[1..|r| - 1] == q
  {
    "%" + q + "%"
  }

  /** Python truthiness of an optional integer query argument: `None` and `0`
      are false. */
  predicate Truthy(n: Option<int>) {
    n.Some? && n.value != 0
  }

  // ---------------------------------------------------------------- window

  /** SQLite's `LIMIT n OFFSET k` over an ordered result; a negative offset
      counts as zero. */
  function Window<T>(rows: seq<T>, limit: nat, offset: int): (r: seq<T>)
    ensures |r| <= limit
    ensures r != [] ==> Max(offset, 0) + |r| <= |rows|
    ensures forall i :: 0 <= i < |r| ==> r[i] == rows[Max(offset, 0) + i]
  {
    var start := if offset < 0 then 0 else offset;
    if start >= |rows| then []
    else rows[start..Min(start + limit, |rows|)]
  }

  function Min(a: int, b: int): int {
    if a <= b then a else b
  }

  function Max(a: int, b: int): int {
    if a <= b then b else a
  }

  /** The rows on pages `1..n`, in order. */
  function FirstPages<T>(rows: seq<T>, perPage: nat, n: nat): seq<T> {
    if n == 0 then [] else FirstPages(rows, perPage, n - 1) + Window(rows, perPage, Offset(n, perPage))
  }

  /** The window at a non-negative offset is the slice of rows it covers. */
  lemma WindowSlice<T>(rows: seq<T>, limit: nat, offset: nat)
    ensures Window(rows, limit, offset) == rows[Min(offset, |rows|)..Min(offset + limit, |rows|)]
  {
  }

  /** Pages `1..n` together are the first `n * perPage` rows. */
  lemma {:induction false} FirstPagesPrefix<T>(rows: seq<T>, perPage: nat, n: nat)
    ensures FirstPages(rows, perPage, n) == rows[..Min(n * perPage, |rows|)]
  {
    if n > 0 {
      FirstPagesPrefix(rows, perPage, n - 1);
      var a := PageStart(n, perPage);
      var lo, hi := Min(a, |rows|), Min(a + perPage, |rows|);
      var prev := FirstPages(rows, perPage, n - 1);
      var w := Window(rows, perPage, a);
      assert FirstPages(rows, perPage, n) == prev + w;
      WindowSlice(rows, perPage, a);
      SliceJoin(rows, prev, w, lo, hi);
      assert Min(n * perPage, |rows|) == hi;
    }
  }

  lemma SliceJoin<T>(rows: seq<T>, prev: seq<T>, w: seq<T>, lo: nat, hi: nat)
    requires lo <= hi <= |rows|
    requires prev == rows[..lo] && w == rows[lo..hi]
    ensures prev + w == rows[..hi]
  {
    assert rows[..hi] == rows[..lo] + rows[lo..hi];
  }

  /** Page `n` starts where pages `1..n-1` end. */
  lemma PageStart(n: nat, perPage: nat) returns (a: nat)
    requires n > 0
    ensures a == (n - 1) * perPage == Offset(n, perPage)
    ensures n * perPage == a + perPage
  {
    a := (n - 1) * perPage;
  }

  /** Walking the pages `1..TotalPages` shows every row exactly once, in order,
      and every later page is empty. */
  lemma PagesCoverRows<T>(rows: seq<T>, perPage: nat, page: int)
    requires perPage > 0
    ensures FirstPages(rows, perPage, TotalPages(|rows|, perPage)) == rows
    ensures page > TotalPages(|rows|, perPage) ==> Window(rows, perPage, Offset(page, perPage)) == []
  {
    var n := TotalPages(|rows|, perPage);
    FirstPagesPrefix(rows, perPage, n);
    assert Min(n * perPage, |rows|) == |rows|;
    assert rows[..|rows|] == rows;
    if page > n {
      PastLastPage(|rows|, perPage, page);
    }
  }

  /** A page after the last one starts at or beyond the end of the rows. */
  lemma PastLastPage(total: nat, perPage: nat, page: int)
    requires perPage > 0 && page > TotalPages(total, perPage)
    ensures Offset(page, perPage) >= total
  {
    MulMonotonic(TotalPages(total, perPage), page - 1, perPage);
  }

  /** Row `j` of a result sits at position `j % perPage` of page
      `j / perPage + 1`, which is within the page count. */
  lemma PageOfRow(j: nat, total: nat, perPage: nat)
    requires perPage > 0 && j < total
    ensures Offset(j / perPage + 1, perPage) == j - j % perPage
    ensures 0 <= j % perPage < perPage && 0 <= j - j % perPage
    ensures j / perPage + 1 <= TotalPages(total, perPage)
  {
    var q, i := j / perPage, j % perPage;
    assert j == q * perPage + i;
    var n := TotalPages(total, perPage);
    if q + 1 > n {
      MulMonotonic(n, q, perPage);
    }
  }

  /** Row `j` is found at position `i` of page `page`, where
      `j == (page - 1) * perPage + i`. */
  lemma WindowFind<T>(rows: seq<T>, perPage: nat, j: nat) returns (page: int, i: nat)
    requires perPage > 0 && j < |rows|
    ensures i < perPage && j == Offset(page, perPage) + i
    ensures 1 <= page <= TotalPages(|rows|, perPage)
    ensures i < |Window(rows, perPage, Offset(page, perPage))|
    ensures Window(rows, perPage, Offset(page, perPage))[i] == rows[j]
  {
    page, i := j / perPage + 1, j % perPage;
    PageOfRow(j, |rows|, perPage);
    WindowSlice(rows, perPage, j - i);
  }

  lemma MulMonotonic(a: nat, b: nat, c: nat)
    requires a <= b
    ensures a * c <= b * c
  {
  }

  /** Page numbers below 1 are not clamped, but their negative offset makes
      SQLite show the first page. */
  lemma NonPositivePageShowsFirst<T>(rows: seq<T>, perPage: nat, page: int)
    requires page <= 1
    ensures Window(rows, perPage, Offset(page, perPage)) == Window(rows, perPage, 0)
  {
    var o := Offset(page, perPage);
    NonPositiveOffset(page, perPage);
    assert (if o < 0 then 0 else o) == 0;
  }

  lemma NonPositiveOffset(page: int, perPage: nat)
    requires page <= 1
    ensures Offset(page, perPage) <= 0
  {
    var a := 1 - page;
    assert Offset(page, perPage) == -(a * perPage);
  }
}

=== FILE: schema.dfy ===
/** The relational store of app/db.py as an immutable value: one map per
    table keyed by row id, the AUTOINCREMENT counters, the schema's UNIQUE,
    DEFAULT and ON DELETE CASCADE rules, `query_db`'s result selection, and
    the bootstrap of the default administrator in `init_db`. */
module Schema {
  import opened Common

  type Id = int

  datatype Category = Category(name: string)

  /** `price` is the float the form parsed; nothing constrains it. */
  datatype Product = Product(
    name: string,
    description: Option<string>,
    price: real,
    stock: int,
    imageUrl: Option<string>,
    categoryId: Option<Id>)

  datatype Image = Image(productId: Id, url: string, isPrimary: bool, sortOrder: int)

  datatype Comment = Comment(productId: Id, userId: Id, username: string, body: string)

  datatype User = User(username: string, passwordHash: string)

  /** The database. `comments` is `None` while the `comments` table does not
      exist (the schema of `init_db` does not create it); `foreignKeys` is the
      connection's `PRAGMA foreign_keys` setting, which decides whether the
      declared cascades and references are enforced. */
  datatype Db = Db(
    categories: map<Id, Category>,
    products: map<Id, Product>,
    images: map<Id, Image>,
    comments: Option<map<Id, Comment>>,
    users: map<Id, User>,
    nextCategory: Id,
    nextProduct: Id,
    nextImage: Id,
    nextUser: Id,
    foreignKeys: bool)

  datatype DbError = UniqueViolation | ForeignKeyViolation

  /** The tables as `init_db` creates them, on a connection opened by `get_db`,
      which never enables foreign keys (app/db.py:12-17, 44-75). */
  const EmptyDb: Db := Db(map[], map[], map[], None, map[], 1, 1, 1, 1, false)

  /** AUTOINCREMENT: every id handed out so far is below the next one. */
  predicate KeysBelow<V>(m: map<Id, V>, next: Id) {
    forall k :: k in m ==> k < next
  }

  /** `categories.name` is UNIQUE (app/db.py:47). */
  predicate UniqueCategoryNames(categories: map<Id, Category>) {
    forall a, b :: a in categories && b in categories && categories[a].name == categories[b].name ==> a == b
  }

  /** `users.username` is UNIQUE (app/db.py:73). */
  predicate UniqueUsernames(users: map<Id, User>) {
    forall a, b :: a in users && b in users && users[a].username == users[b].username ==> a == b
  }

  /** The schema-level facts every reachable database satisfies. */
  predicate Consistent(db: Db) {
    && KeysBelow(db.categories, db.nextCategory)
    && KeysBelow(db.products, db.nextProduct)
    && KeysBelow(db.images, db.nextImage)
    && KeysBelow(db.users, db.nextUser)
    && (forall k :: k in db.images ==> db.images[k].productId < db.nextProduct)
    && UniqueCategoryNames(db.categories)
    && UniqueUsernames(db.users)
  }

  /** Some category other than `except` is called `name`. */
  predicate NameTaken(categories: map<Id, Category>, name: string, except: Option<Id>) {
    exists k :: k in categories && categories[k].name == name && Some(k) != except
  }

  // ---------------------------------------------------------------- query_db

  /** What `query_db` hands back: every row, or (with `one=True`) the first row or `None`. */
  datatype Fetched<T> = AllRows(rows: seq<T>) | OneRow(row: Option<T>)

  /** `query_db(query, args, one)` applied to the rows the query produced (app/db.py:33-36). */
  function QueryDb<T>(rows: seq<T>, one: bool): (r: Fetched<T>)
    ensures r.OneRow? <==> one
    ensures r.OneRow? ==> (r.row.None? <==> rows == [])
    ensures r.OneRow? && r.row.Some? ==> r.row.value == rows[0]
    ensures r.AllRows? ==> r.rows == rows
  {
    if one then OneRow(if rows == [] then None else Some(rows[0])) else AllRows(rows)
  }

  // ---------------------------------------------------------------- categories

  /** `INSERT INTO categories (name)`: refused by the UNIQUE constraint when the name exists. */
  function InsertCategory(db: Db, name: string): (r: Result<(Db, Id), DbError>)
    ensures r.Err? <==> NameTaken(db.categories, name, None)
    ensures r.Ok? ==> r.value.1 == db.nextCategory && r.value.1 in r.value.0.categories
                      && r.value.0.categories[r.value.1] == Category(name)
    ensures r.Ok? && KeysBelow(db.categories, db.nextCategory) ==>
      r.value.1 !in db.categories && r.value.0.categories.Keys == db.categories.Keys + {r.value.1}
    ensures r.Ok? && UniqueCategoryNames(db.categories) && KeysBelow(db.categories, db.nextCategory) ==>
      UniqueCategoryNames(r.value.0.categories)
  {
    if NameTaken(db.categories, name, None) then Err(UniqueViolation)
    else
      var id := db.nextCategory;
      Ok((db.(categories := db.categories[id := Category(name)], nextCategory := id + 1), id))
  }

  /** `UPDATE categories SET name = ? WHERE id = ?`: changes nothing when the id
      is absent, and is refused when another category already has the name. */
  function RenameCategoryRow(db: Db, id: Id, name: string): (r: Result<Db, DbError>)
    ensures r.Err? <==> id in db.categories && NameTaken(db.categories, name, Some(id))
    ensures r.Ok? && id !in db.categories ==> r.value == db
    ensures r.Ok? && id in db.categories ==> r.value == db.(categories := db.categories[id := Category(name)])
    ensures r.Ok? && UniqueCategoryNames(db.categories) ==> UniqueCategoryNames(r.value.categories)
  {
    if id !in db.categories then Ok(db)
    else if NameTaken(db.categories, name, Some(id)) then Err(UniqueViolation)
    else Ok(db.(categories := db.categories[id := Category(name)]))
  }

  /** The products a category holds. */
  function ProductsIn(db: Db, categoryId: Id): (r: set<Id>)
    ensures forall k :: k in r <==> k in db.products && db.products[k].categoryId == Some(categoryId)
  {
    set k | k in db.products && db.products[k].categoryId == Some(categoryId)
  }

  /** `DELETE FROM products WHERE id IN ids`; when foreign keys are enforced,
      `product_images.product_id ... ON DELETE CASCADE` (app/db.py:68) removes
      the image rows of the products that were actually deleted. */
  function DeleteProductRows(db: Db, ids: set<Id>): (r: Db)
    ensures r.products.Keys == db.products.Keys - ids
    ensures forall k :: k in r.products ==> r.products[k] == db.products[k]
    ensures db.foreignKeys ==> forall k :: k in r.images <==>
      k in db.images && !(db.images[k].productId in ids && db.images[k].productId in db.products)
    ensures !db.foreignKeys ==> r.images == db.images
    ensures forall k :: k in r.images ==> r.images[k] == db.images[k]
    ensures r.categories == db.categories && r.comments == db.comments && r.users == db.users
    ensures Consistent(db) ==> Consistent(r)
  {
    var gone := ids * db.products.Keys;
    var images := if db.foreignKeys then map k | k in db.images && db.images[k].productId !in gone :: db.images[k]
                  else db.images;
    db.(products := map k | k in db.products && k !in ids :: db.products[k], images := images)
  }

  /** `DELETE FROM categories WHERE id = ?`; when foreign keys are enforced,
      `products.category_id ... ON DELETE CASCADE` (app/db.py:59) removes the
      category's products, and through them their image rows; deleting an id
      with no row cascades nothing. */
  function DeleteCategoryRow(db: Db, id: Id): (r: Db)
    ensures r.categories.Keys == db.categories.Keys - {id}
    ensures forall k :: k in r.categories ==> r.categories[k] == db.categories[k]
    ensures db.foreignKeys && id in db.categories ==> r == DeleteProductRows(db.(categories := r.categories), ProductsIn(db, id))
    ensures !(db.foreignKeys && id in db.categories) ==> r == db.(categories := r.categories)
    ensures Consistent(db) ==> Consistent(r)
  {
    var db1 := db.(categories := map k | k in db.categories && k != id :: db.categories[k]);
    if db.foreignKeys && id in db.categories then DeleteProductRows(db1, ProductsIn(db, id)) else db1
  }

  /** The declared cascades, when enforced, leave nothing that belonged to the
      deleted category; without the pragma they do nothing at all. */
  lemma DeclaredCascades(db: Db, id: Id)
    ensures db.foreignKeys && id in db.categories ==>
      && (forall k :: k in DeleteCategoryRow(db, id).products ==> DeleteCategoryRow(db, id).products[k].categoryId != Some(id))
      && (forall k :: k in DeleteCategoryRow(db, id).images ==> DeleteCategoryRow(db, id).images[k].productId !in ProductsIn(db, id))
    ensures !db.foreignKeys ==>
      DeleteCategoryRow(db, id).products == db.products && DeleteCategoryRow(db, id).images == db.images
  {
  }

  // ---------------------------------------------------------------- products

  /** Whether a `category_id` value passes the reference check, which only
      applies when foreign keys are enforced. */
  predicate CategoryRefOk(db: Db, categoryId: Option<Id>) {
    !db.foreignKeys || categoryId.None? || categoryId.value in db.categories
  }

  /** `INSERT INTO products (...)`; the new row gets the next AUTOINCREMENT id. */
  function InsertProduct(db: Db, p: Product): (r: Result<(Db, Id), DbError>)
    ensures r.Err? <==> !CategoryRefOk(db, p.categoryId)
    ensures r.Ok? ==> r.value.1 == db.nextProduct && r.value.0.products == db.products[db.nextProduct := p]
    ensures r.Ok? ==> r.value.0 == db.(products := r.value.0.products, nextProduct := db.nextProduct + 1)
    ensures r.Ok? && Consistent(db) ==> Consistent(r.value.0) && r.value.1 !in db.products
  {
    if !CategoryRefOk(db, p.categoryId) then Err(ForeignKeyViolation)
    else Ok((db.(products := db.products[db.nextProduct := p], nextProduct := db.nextProduct + 1), db.nextProduct))
  }

  /** `UPDATE products SET ... WHERE id = ?` for an existing row. */
  function UpdateProductRow(db: Db, id: Id, p: Product): (r: Result<Db, DbError>)
    requires id in db.products
    ensures r.Err? <==> !CategoryRefOk(db, p.categoryId)
    ensures r.Ok? ==> r.value == db.(products := db.products[id := p])
    ensures r.Ok? && Consistent(db) ==> Consistent(r.value)
  {
    if !CategoryRefOk(db, p.categoryId) then Err(ForeignKeyViolation)
    else Ok(db.(products := db.products[id := p]))
  }

  // ---------------------------------------------------------------- images

  /** `product_images.sort_order INTEGER DEFAULT 0` (app/db.py:67). */
  const DefaultSortOrder := 0

  /** A `product_images` row as an INSERT that names `product_id`, `image_url`
      and possibly `is_primary` creates it: the omitted columns take their
      declared defaults, `is_primary` 0 and `sort_order` 0 (app/db.py:66-67). */
  function NewImageRow(productId: Id, url: string, isPrimary: Option<bool>): (r: Image)
    ensures r.productId == productId && r.url == url
    ensures r.sortOrder == 0
    ensures r.isPrimary <==> isPrimary == Some(true)
  {
    Image(productId, url, isPrimary == Some(true), DefaultSortOrder)
  }

  // ---------------------------------------------------------------- users

  const AdminUsername := "admin"

  predicate HasUser(users: map<Id, User>, username: string) {
    exists k :: k in users && users[k].username == username
  }

  /** The bootstrap step of `init_db` (app/db.py:79-87): insert user `admin`
      with the given password hash unless a user of that name exists. */
  function InitAdmin(db: Db, passwordHash: string): (r: Db)
    ensures HasUser(r.users, AdminUsername)
    ensures HasUser(db.users, AdminUsername) ==> r == db
    ensures !HasUser(db.users, AdminUsername) ==>
      r == db.(users := db.users[db.nextUser := User(AdminUsername, passwordHash)], nextUser := db.nextUser + 1)
    ensures Consistent(db) ==> Consistent(r)
  {
    if HasUser(db.users, AdminUsername) then db
    else
      var id := db.nextUser;
      var r := db.(users := db.users[id := User(AdminUsername, passwordHash)], nextUser := id + 1);
      assert r.users[id].username == AdminUsername;
      r
  }

  /** `init_db` run once per element of `passwordHashes`. */
  function InitAdminRepeatedly(db: Db, passwordHashes: seq<string>): Db
    decreases |passwordHashes|
  {
    if passwordHashes == [] then db
    else InitAdminRepeatedly(InitAdmin(db, passwordHashes[0]), passwordHashes[1..])
  }

  /** However often `init_db` runs, the first run decides: afterwards there is
      exactly one `admin` row, and later runs change nothing. */
  lemma {:induction false} InitAdminIdempotent(db: Db, passwordHashes: seq<string>)
    requires Consistent(db)
    requires |passwordHashes| > 0
    ensures InitAdminRepeatedly(db, passwordHashes) == InitAdmin(db, passwordHashes[0])
    ensures var r := InitAdminRepeatedly(db, passwordHashes);
      exists k :: k in r.users && r.users[k].username == AdminUsername
                  && forall k' :: k' in r.users && r.users[k'].username == AdminUsername ==> k' == k
    decreases |passwordHashes|
  {
    var first := InitAdmin(db, passwordHashes[0]);
    if |passwordHashes| > 1 {
      InitAdminIdempotent(first, passwordHashes[1..]);
      assert InitAdmin(first, passwordHashes[1]) == first;
    } else {
      assert InitAdminRepeatedly(first, passwordHashes[1..]) == first;
    }
    var k :| k in first.users && first.users[k].username == AdminUsername;
    assert forall k' :: k' in first.users && first.users[k'].username == AdminUsername ==> k' == k;
  }
}

=== FILE: storefront.dfy ===
/** The public pages of the blueprint (app/main/routes.py): the home list
    with its category filter, name search and pagination, and the product
    detail lookup with its image order. */
module Storefront {
  import opened Common
  import opened Schema
  import opened Images
  import opened Query
  import opened Listing
  import Text

  /** `per_page` of the home page. */
  const HomePerPage: nat := 12

  /** The WHERE builder of `home` (app/main/routes.py:15-27): always the stock
      condition, then the category when `category_id` is truthy, then a name
      search on the stripped `search_query` when it is not empty. */
  function HomeFilter(categoryId: Option<int>, rawSearch: string): (r: Filter)
    ensures WellFormed(r)
    ensures CategoryIs in r.clauses <==> Truthy(categoryId)
    ensures NameLike in r.clauses <==> Text.Strip(rawSearch) != ""
  {
    SearchFilter(categoryId, Text.Strip(rawSearch))
  }

  /** The home filter for an already stripped search text `q`. */
  function SearchFilter(categoryId: Option<int>, q: string): (r: Filter)
    ensures WellFormed(r)
    ensures CategoryIs in r.clauses <==> Truthy(categoryId)
    ensures NameLike in r.clauses <==> q != ""
  {
    var f0 := AddIf(NoFilter, true, StockNonNegative, []);
    var f1 := AddIf(f0, Truthy(categoryId), CategoryIs, if Truthy(categoryId) then [IntParam(categoryId.value)] else []);
    TotalAritySnoc([], StockNonNegative);
    TotalAritySnoc(f0.clauses, CategoryIs);
    TotalAritySnoc(f1.clauses, NameLike);
    AddIf(f1, q != "", NameLike, [TextParam(LikePattern(q))])
  }

  /** What `home` selects, stated without clauses: in-stock-or-zero products,
      of the category when one is chosen, whose name matches the search. */
  predicate HomeWants(categoryId: Option<int>, rawSearch: string, p: Product, like: (string, string) -> bool) {
    var q := Text.Strip(rawSearch);
    && p.stock >= 0
    && (Truthy(categoryId) ==> p.categoryId == Some(categoryId.value))
    && (q != "" ==> like(p.name, LikePattern(q)))
  }

  /** The shape of the home filter: it starts with `p.stock >= 0`, so its
      WHERE fragment is never empty; the category condition and its one
      parameter appear exactly when `category_id` is truthy; the search adds
      exactly one `%q%` parameter when the stripped text is not empty. */
  lemma HomeFilterShape(categoryId: Option<int>, rawSearch: string)
    ensures var f := HomeFilter(categoryId, rawSearch);
      && WellFormed(f)
      && f.clauses != [] && f.clauses[0] == StockNonNegative
      && (CategoryIs in f.clauses <==> Truthy(categoryId))
      && (NameLike in f.clauses <==> Text.Strip(rawSearch) != "")
      && |f.params| == (if Truthy(categoryId) then 1 else 0) + (if Text.Strip(rawSearch) != "" then 1 else 0)
      && (Truthy(categoryId) ==> f.params[0] == IntParam(categoryId.value))
      && (Text.Strip(rawSearch) != "" ==> f.params[|f.params| - 1] == TextParam(LikePattern(Text.Strip(rawSearch))))
  {
    SearchFilterShape(categoryId, Text.Strip(rawSearch));
  }

  lemma SearchFilterShape(categoryId: Option<int>, q: string)
    ensures var f := SearchFilter(categoryId, q);
      && f.clauses != [] && f.clauses[0] == StockNonNegative
      && (CategoryIs in f.clauses <==> Truthy(categoryId))
      && (NameLike in f.clauses <==> q != "")
      && |f.params| == (if Truthy(categoryId) then 1 else 0) + (if q != "" then 1 else 0)
      && (Truthy(categoryId) ==> f.params[0] == IntParam(categoryId.value))
      && (q != "" ==> f.params[|f.params| - 1] == TextParam(LikePattern(q)))
  {
    var f := SearchFilter(categoryId, q);
    var t := TextParam(LikePattern(q));
    if Truthy(categoryId) {
      var c := IntParam(categoryId.value);
      if q != "" {
        assert f == Filter([StockNonNegative, CategoryIs, NameLike], [c, t]);
      } else {
        assert f == Filter([StockNonNegative, CategoryIs], [c]);
      }
    } else {
      if q != "" {
        assert f == Filter([StockNonNegative, NameLike], [t]);
      } else {
        assert f == Filter([StockNonNegative], []);
      }
    }
  }

  /** The home page always sends a WHERE fragment. */
  lemma HomeWhereNeverEmpty(categoryId: Option<int>, rawSearch: string)
    ensures Render(WhereSql(HomeFilter(categoryId, rawSearch).clauses)) != ""
  {
    var cs := HomeFilter(categoryId, rawSearch).clauses;
    HomeFilterShape(categoryId, rawSearch);
    WhereSqlEmpty(cs);
  }

  /** The home filter selects exactly the products `HomeWants`. */
  lemma HomeFilterMeaning(categoryId: Option<int>, rawSearch: string, p: Product, like: (string, string) -> bool)
    ensures WellFormed(HomeFilter(categoryId, rawSearch))
    ensures Selects(HomeFilter(categoryId, rawSearch), p, like) <==> HomeWants(categoryId, rawSearch, p, like)
  {
    SearchMeaning(categoryId, Text.Strip(rawSearch), p, like);
  }

  lemma SearchMeaning(categoryId: Option<int>, q: string, p: Product, like: (string, string) -> bool)
    ensures Selects(SearchFilter(categoryId, q), p, like) <==>
      && p.stock >= 0
      && (Truthy(categoryId) ==> p.categoryId == Some(categoryId.value))
      && (q != "" ==> like(p.name, LikePattern(q)))
  {
    var args1 := if Truthy(categoryId) then [IntParam(categoryId.value)] else [];
    assert WellFormed(NoFilter);
    AddIfMeaning(NoFilter, true, StockNonNegative, [], p, like);
    var f0 := AddIf(NoFilter, true, StockNonNegative, []);
    AddIfMeaning(f0, Truthy(categoryId), CategoryIs, args1, p, like);
    var f1 := AddIf(f0, Truthy(categoryId), CategoryIs, args1);
    AddIfMeaning(f1, q != "", NameLike, [TextParam(LikePattern(q))], p, like);
  }

  /** The home page (app/main/routes.py:13-51): a page of 12 rows of the
      products `HomeWants`, newest first, and the page count. */
  function Home(db: Db, categoryId: Option<int>, rawSearch: string, page: int, like: (string, string) -> bool): (v: View)
    ensures v.totalPages == TotalPages(v.totalProducts, HomePerPage)
    ensures |v.rows| <= HomePerPage
    ensures forall i :: 0 <= i < |v.rows| ==>
      && v.rows[i].id in db.products
      && v.rows[i] == RowOf(db, v.rows[i].id)
      && HomeWants(categoryId, rawSearch, db.products[v.rows[i].id], like)
    ensures forall i, j :: 0 <= i < j < |v.rows| ==> v.rows[i].id > v.rows[j].id
    ensures v.plan.pageParams == v.plan.countParams + [IntParam(HomePerPage), IntParam(Offset(page, HomePerPage))]
  {
    var f := HomeFilter(categoryId, rawSearch);
    HomeFilterShape(categoryId, rawSearch);
    var v := ListPage(db, f, like, HomePerPage, page);
    forall i | 0 <= i < |v.rows|
      ensures HomeWants(categoryId, rawSearch, db.products[v.rows[i].id], like)
    {
      HomeFilterMeaning(categoryId, rawSearch, db.products[v.rows[i].id], like);
    }
    assert v.plan.pageParams == v.plan.pageParams[..|v.plan.countParams|] + v.plan.pageParams[|v.plan.countParams|..];
    v
  }

  /** Every product `HomeWants` is on some page between 1 and the page count. */
  lemma HomeListsEveryMatch(db: Db, categoryId: Option<int>, rawSearch: string, like: (string, string) -> bool, id: Id)
    requires id in db.products && HomeWants(categoryId, rawSearch, db.products[id], like)
    ensures exists page ::
      (1 <= page <= Home(db, categoryId, rawSearch, page, like).totalPages
       && exists i :: 0 <= i < |Home(db, categoryId, rawSearch, page, like).rows|
                      && Home(db, categoryId, rawSearch, page, like).rows[i].id == id)
  {
    var f := HomeFilter(categoryId, rawSearch);
    HomeFilterMeaning(categoryId, rawSearch, db.products[id], like);
    var all := Ordered(db, f, like);
    assert id in Selected(db, f, like);
    var j :| 0 <= j < |all| && all[j].id == id;
    var page, i := ListPageFind(db, f, like, HomePerPage, j);
    HomeIsListPage(db, categoryId, rawSearch, page, like);
    var v := Home(db, categoryId, rawSearch, page, like);
    assert 1 <= page <= v.totalPages && 0 <= i < |v.rows| && v.rows[i].id == id;
  }

  lemma HomeIsListPage(db: Db, categoryId: Option<int>, rawSearch: string, page: int, like: (string, string) -> bool)
    ensures WellFormed(HomeFilter(categoryId, rawSearch))
    ensures Home(db, categoryId, rawSearch, page, like) == ListPage(db, HomeFilter(categoryId, rawSearch), like, HomePerPage, page)
  {
  }

  // ---------------------------------------------------------------- detail

  /** The image order of the detail page: primary images first, then by
      ascending `sort_order` (`ORDER BY is_primary DESC, sort_order ASC`). */
  predicate Before(images: map<Id, Image>, a: Id, b: Id)
    requires a in images && b in images
  {
    var x, y := images[a], images[b];
    (x.isPrimary && !y.isPrimary) || (x.isPrimary == y.isPrimary && x.sortOrder <= y.sortOrder)
  }

  predicate InDetailOrder(images: map<Id, Image>, ids: seq<Id>) {
    && (forall i :: 0 <= i < |ids| ==> ids[i] in images)
    && (forall i, j :: 0 <= i < j < |ids| ==> Before(images, ids[i], ids[j]))
  }

  /** Two images the detail query cannot tell apart: same primary flag and
      same sort order. */
  predicate Tied(images: map<Id, Image>, a: Id, b: Id)
    requires a in images && b in images
  {
    images[a].isPrimary == images[b].isPrimary && images[a].sortOrder == images[b].sortOrder
  }

  /** Tied images appear in ascending id order. */
  predicate TiesAscending(images: map<Id, Image>, ids: seq<Id>)
    requires forall i :: 0 <= i < |ids| ==> ids[i] in images
  {
    forall i, j :: 0 <= i < j < |ids| && Tied(images, ids[i], ids[j]) ==> ids[i] < ids[j]
  }

  /** Insert one image id into an ordered list, in front of every image it
      ties with; an id below all others thus keeps ties in id order. */
  function Insert(images: map<Id, Image>, x: Id, s: seq<Id>): (r: seq<Id>)
    requires x in images && InDetailOrder(images, s)
    ensures multiset(r) == multiset(s) + multiset{x}
    ensures InDetailOrder(images, r)
    ensures (forall i :: 0 <= i < |s| ==> x < s[i]) && TiesAscending(images, s) ==> TiesAscending(images, r)
    decreases |s|
  {
    if s == [] then [x]
    else if Before(images, x, s[0]) then
      InsertInFront(images, x, s);
      InsertInFrontTies(images, x, s);
      [x] + s
    else
      var rest := Insert(images, x, s[1..]);
      InsertBehind(images, x, s, rest);
      InsertBehindTies(images, x, s, rest);
      [s[0]] + rest
  }

  lemma InsertInFrontTies(images: map<Id, Image>, x: Id, s: seq<Id>)
    requires x in images && InDetailOrder(images, s)
    ensures (forall i :: 0 <= i < |s| ==> x < s[i]) && TiesAscending(images, s) ==> TiesAscending(images, [x] + s)
  {
    if (forall i :: 0 <= i < |s| ==> x < s[i]) && TiesAscending(images, s) {
      var r := [x] + s;
      forall i, j | 0 <= i < j < |r| && Tied(images, r[i], r[j])
        ensures r[i] < r[j]
      {
        if i == 0 {
          assert r[j] == s[j - 1];
        } else {
          assert r[i] == s[i - 1] && r[j] == s[j - 1];
        }
      }
    }
  }

  /** Behind the head: the head ties with no later id that is smaller, since
      `x` does not tie with it and the rest came from `s`. */
  lemma InsertBehindTies(images: map<Id, Image>, x: Id, s: seq<Id>, rest: seq<Id>)
    requires x in images && InDetailOrder(images, s)
    requires s != [] && !Before(images, x, s[0])
    requires multiset(rest) == multiset(s[1..]) + multiset{x}
    requires InDetailOrder(images, rest)
    requires (forall i :: 0 <= i < |s[1..]| ==> x < s[1..][i]) && TiesAscending(images, s[1..]) ==> TiesAscending(images, rest)
    ensures (forall i :: 0 <= i < |s| ==> x < s[i]) && TiesAscending(images, s) ==> TiesAscending(images, [s[0]] + rest)
  {
    if (forall i :: 0 <= i < |s| ==> x < s[i]) && TiesAscending(images, s) {
      assert TiesAscending(images, s[1..]) by {
        forall i, j | 0 <= i < j < |s[1..]| && Tied(images, s[1..][i], s[1..][j])
          ensures s[1..][i] < s[1..][j]
        {
          assert s[1..][i] == s[i + 1] && s[1..][j] == s[j + 1];
        }
      }
      var r := [s[0]] + rest;
      forall i, j | 0 <= i < j < |r| && Tied(images, r[i], r[j])
        ensures r[i] < r[j]
      {
        if i == 0 {
          var y := rest[j - 1];
          assert r[j] == y;
          assert y in multiset(rest);
          if y == x {
            assert Before(images, x, s[0]);
          } else {
            assert y in multiset(s[1..]);
            var k :| 0 <= k < |s[1..]| && s[1..][k] == y;
            assert s[k + 1] == y;
          }
        } else {
          assert r[i] == rest[i - 1] && r[j] == rest[j - 1];
        }
      }
    }
  }

  /** An id that goes before the head of an ordered list goes before all of it. */
  lemma InsertInFront(images: map<Id, Image>, x: Id, s: seq<Id>)
    requires x in images && InDetailOrder(images, s)
    requires s != [] && Before(images, x, s[0])
    ensures InDetailOrder(images, [x] + s)
  {
    var r := [x] + s;
    forall i, j | 0 <= i < j < |r|
      ensures Before(images, r[i], r[j])
    {
      if i == 0 {
        if j > 1 {
          assert Before(images, s[0], s[j - 1]);
        }
      } else {
        assert r[i] == s[i - 1] && r[j] == s[j - 1];
      }
    }
  }

  /** An id that does not go before the head, inserted into the tail, keeps
      the head first. */
  lemma InsertBehind(images: map<Id, Image>, x: Id, s: seq<Id>, rest: seq<Id>)
    requires x in images && InDetailOrder(images, s)
    requires s != [] && !Before(images, x, s[0])
    requires multiset(rest) == multiset(s[1..]) + multiset{x}
    requires InDetailOrder(images, rest)
    ensures multiset([s[0]] + rest) == multiset(s) + multiset{x}
    ensures InDetailOrder(images, [s[0]] + rest)
  {
    assert s == [s[0]] + s[1..];
    forall j | 0 <= j < |rest|
      ensures Before(images, s[0], rest[j])
    {
      assert rest[j] in multiset(rest);
      if rest[j] != x {
        assert rest[j] in multiset(s[1..]);
        var k :| 0 <= k < |s[1..]| && s[1..][k] == rest[j];
        assert s[k + 1] == rest[j];
      }
    }
    var r := [s[0]] + rest;
    forall i, j | 0 <= i < j < |r|
      ensures Before(images, r[i], r[j])
    {
      if i == 0 {
        assert r[j] == rest[j - 1];
      } else {
        assert r[i] == rest[i - 1] && r[j] == rest[j - 1];
      }
    }
  }

  /** Insertion sort into the detail order. It is stable: ids that come in
      ascending order keep that order among tied images. */
  function SortForDetail(images: map<Id, Image>, ids: seq<Id>): (r: seq<Id>)
    requires forall i :: 0 <= i < |ids| ==> ids[i] in images
    ensures multiset(r) == multiset(ids)
    ensures InDetailOrder(images, r)
    ensures (forall i, j :: 0 <= i < j < |ids| ==> ids[i] < ids[j]) ==> TiesAscending(images, r)
  {
    if ids == [] then []
    else
      assert ids == [ids[0]] + ids[1..];
      var rest := SortForDetail(images, ids[1..]);
      SortStep(images, ids, rest);
      Insert(images, ids[0], rest)
  }

  /** Inserting the head into the sorted tail sorts the whole list. */
  lemma SortStep(images: map<Id, Image>, ids: seq<Id>, rest: seq<Id>)
    requires forall i :: 0 <= i < |ids| ==> ids[i] in images
    requires ids != [] && multiset(rest) == multiset(ids[1..]) && InDetailOrder(images, rest)
    requires (forall i, j :: 0 <= i < j < |ids[1..]| ==> ids[1..][i] < ids[1..][j]) ==> TiesAscending(images, rest)
    ensures var r := Insert(images, ids[0], rest);
      && multiset(r) == multiset(ids)
      && InDetailOrder(images, r)
      && ((forall i, j :: 0 <= i < j < |ids| ==> ids[i] < ids[j]) ==> TiesAscending(images, r))
  {
    assert ids == [ids[0]] + ids[1..];
    SortedTailAbove(ids, rest);
  }

  /** The head of an ascending list is below every element of a
      rearrangement of its tail. */
  lemma SortedTailAbove(ids: seq<Id>, rest: seq<Id>)
    requires ids != [] && multiset(rest) == multiset(ids[1..])
    ensures (forall i, j :: 0 <= i < j < |ids| ==> ids[i] < ids[j]) ==>
      (forall i :: 0 <= i < |rest| ==> ids[0] < rest[i])
      && (forall i, j :: 0 <= i < j < |ids[1..]| ==> ids[1..][i] < ids[1..][j])
  {
    if forall i, j :: 0 <= i < j < |ids| ==> ids[i] < ids[j] {
      forall i | 0 <= i < |rest|
        ensures ids[0] < rest[i]
      {
        assert rest[i] in multiset(rest);
        assert rest[i] in multiset(ids[1..]);
        var k :| 0 <= k < |ids[1..]| && ids[1..][k] == rest[i];
        assert ids[k + 1] == rest[i];
      }
      forall i, j | 0 <= i < j < |ids[1..]|
        ensures ids[1..][i] < ids[1..][j]
      {
        assert ids[1..][i] == ids[i + 1] && ids[1..][j] == ids[j + 1];
      }
    }
  }

  /** The image ids the detail query returns for a product: each of its
      images exactly once, in the detail order. Rows that tie on both keys
      come in id order here; SQL leaves their order open. */
  function DetailImageIds(images: map<Id, Image>, productId: Id): (r: seq<Id>)
    ensures InDetailOrder(images, r)
    ensures TiesAscending(images, r)
    ensures |r| == |IdsOf(images, productId)|
    ensures forall k :: k in r <==> k in IdsOf(images, productId)
    ensures forall i, j :: 0 <= i < j < |r| ==> r[i] != r[j]
  {
    var ids := Ascending(IdsOf(images, productId));
    var r := SortForDetail(images, ids);
    SameElements(ids, r);
    r
  }

  /** A rearrangement of a strictly increasing list has the same elements,
      each once. */
  lemma SameElements(ids: seq<Id>, r: seq<Id>)
    requires forall i, j :: 0 <= i < j < |ids| ==> ids[i] < ids[j]
    requires multiset(r) == multiset(ids)
    ensures |r| == |ids|
    ensures forall k :: k in r <==> k in ids
    ensures forall i, j :: 0 <= i < j < |r| ==> r[i] != r[j]
  {
    assert |r| == |multiset(r)| == |multiset(ids)| == |ids|;
    forall k
      ensures k in r <==> k in ids
    {
      assert k in r <==> k in multiset(r);
      assert k in ids <==> k in multiset(ids);
    }
    forall i, j | 0 <= i < j < |r|
      ensures r[i] != r[j]
    {
      if r[i] == r[j] {
        TwiceCountsTwice(r, i, j);
        DistinctCountOne(ids, r[i]);
      }
    }
  }

  lemma TwiceCountsTwice(r: seq<Id>, i: nat, j: nat)
    requires i < j < |r| && r[i] == r[j]
    ensures multiset(r)[r[i]] >= 2
  {
    assert r == r[..j] + r[j..];
    assert r[i] in r[..j];
    assert r[j] in r[j..];
  }

  /** An element of a strictly increasing list occurs once. */
  lemma {:induction false} DistinctCountOne(ids: seq<Id>, x: Id)
    requires forall i, j :: 0 <= i < j < |ids| ==> ids[i] < ids[j]
    ensures multiset(ids)[x] <= 1
    decreases |ids|
  {
    if ids != [] {
      DistinctCountOne(ids[1..], x);
      assert ids == [ids[0]] + ids[1..];
      if ids[0] == x {
        assert x !in ids[1..];
      }
    }
  }

  /** What the detail page shows. */
  datatype Detail = Detail(product: Product, categoryName: string, imageUrls: seq<string>)

  /** `product_detail` (app/main/routes.py:100-108): the inner join on
      categories means a product without an existing category is not found,
      just like an unknown id. */
  function ProductDetail(db: Db, productId: Id): (r: Option<Detail>)
    ensures r.Some? <==> productId in db.products && CategoryName(db, db.products[productId]).Some?
    ensures r.Some? ==>
      r.value.product == db.products[productId] && Some(r.value.categoryName) == CategoryName(db, db.products[productId])
    ensures r.Some? ==> |r.value.imageUrls| == |DetailImageIds(db.images, productId)|
    ensures r.Some? ==> forall i :: 0 <= i < |r.value.imageUrls| ==>
      r.value.imageUrls[i] == db.images[DetailImageIds(db.images, productId)[i]].url
  {
    if productId !in db.products then None
    else
      var p := db.products[productId];
      match CategoryName(db, p)
      case None => None
      case Some(name) =>
        var ids := DetailImageIds(db.images, productId);
        DetailIdsPresent(db.images, productId, ids);
        Some(Detail(p, name, UrlsOf(db.images, ids)))
  }

  /** The `url` column of the given image rows, in order. */
  function UrlsOf(images: map<Id, Image>, ids: seq<Id>): (r: seq<string>)
    requires forall i :: 0 <= i < |ids| ==> ids[i] in images
    ensures |r| == |ids|
    ensures forall i :: 0 <= i < |ids| ==> r[i] == images[ids[i]].url
  {
    seq(|ids|, i requires 0 <= i < |ids| => images[ids[i]].url)
  }

  lemma DetailIdsPresent(images: map<Id, Image>, productId: Id, ids: seq<Id>)
    requires forall k :: k in ids <==> k in IdsOf(images, productId)
    ensures forall i :: 0 <= i < |ids| ==> ids[i] in images
  {
    forall i | 0 <= i < |ids|
      ensures ids[i] in images
    {
      var k := ids[i];
      assert k in ids;
      assert k in IdsOf(images, productId);
    }
  }

  /** Under the primary-image invariant the detail order starts with the
      product's lowest-id image, the one the list shows as thumbnail. */
  lemma DetailStartsWithThumbnail(images: map<Id, Image>, productId: Id)
    requires PrimaryIsFirst(images)
    ensures var ids := DetailImageIds(images, productId);
      (ids == [] <==> Thumbnail(images, productId).None?)
      && (ids != [] ==> Some(images[ids[0]].url) == Thumbnail(images, productId))
  {
    var ids := DetailImageIds(images, productId);
    if ids != [] {
      var first := FirstImage(images, productId).value;
      ThumbnailIsPrimary(images, productId);
      ExactlyOnePrimary(images, productId);
      assert first in ids;
      var j :| 0 <= j < |ids| && ids[j] == first;
      assert ids[0] in IdsOf(images, productId);
    }
  }
}

=== FILE: text.dfy ===
/** String helpers of the store (app/utils.py): Python's `str.strip`, the
    upload extension check `allowed_file`, the `nl2br` template filter, and
    the POSIX path pieces the upload code relies on. */
module Text {
  import opened Common

  /** The extensions the application accepts for uploads (config.py:30). */
  const ImageExtensions: set<string> := {"png", "jpg", "jpeg", "gif"}

  /** Python's `str.isspace` for a single character. */
  predicate IsSpace(c: char) {
    || ('\t' <= c <= '\r')
    || ('\U{1C}' <= c <= '\U{1F}')
    || c == ' '
    || c == '\U{85}'
    || c == '\U{A0}'
    || c == '\U{1680}'
    || ('\U{2000}' <= c <= '\U{200A}')
    || c == '\U{2028}'
    || c == '\U{2029}'
    || c == '\U{202F}'
    || c == '\U{205F}'
    || c == '\U{3000}'
  }

  predicate AllSpace(s: string) {
    forall k :: 0 <= k < |s| ==> IsSpace(s[k])
  }

  /** Length of the run of whitespace that starts `s`. */
  function LeadingSpaces(s: string): (n: nat)
    ensures n <= |s|
    ensures AllSpace(s[..n])
    ensures n < |s| ==> !IsSpace(s[n])
  {
    if s == [] || !IsSpace(s[0]) then 0 else 1 + LeadingSpaces(s[1..])
  }

  /** The index, not below `lo`, where the run of whitespace ending `s[..hi]` begins. */
  function TrailingStart(s: string, lo: nat, hi: nat): (m: nat)
    requires lo <= hi <= |s|
    ensures lo <= m <= hi
    ensures AllSpace(s[m..hi])
    ensures m > lo ==> !IsSpace(s[m - 1])
    decreases hi
  {
    if hi > lo && IsSpace(s[hi - 1]) then
      var m := TrailingStart(s, lo, hi - 1);
      assert s[m..hi] == s[m..hi - 1] + [s[hi - 1]];
      m
    else hi
  }

  /** Python's `s.strip()`: drop leading and trailing whitespace. */
  function Strip(s: string): (r: string)
    ensures exists i, j :: 0 <= i <= j <= |s| && r == s[i..j] && AllSpace(s[..i]) && AllSpace(s[j..])
    ensures r != [] ==> !IsSpace(r[0]) && !IsSpace(r[|r| - 1])
    ensures r == [] <==> AllSpace(s)
  {
    var i := LeadingSpaces(s);
    var j := TrailingStart(s, i, |s|);
    StripCut(s, i, j);
    s[i..j]
  }

  /** Cutting a leading run of whitespace that stops at a non-space, and a
      trailing run that does too, leaves the stripped text. */
  lemma StripCut(s: string, i: nat, j: nat)
    requires i <= j <= |s|
    requires AllSpace(s[..i]) && (i < |s| ==> !IsSpace(s[i]))
    requires AllSpace(s[j..|s|]) && (j > i ==> !IsSpace(s[j - 1]))
    ensures AllSpace(s[j..])
    ensures s[i..j] != [] ==> !IsSpace(s[i..j][0]) && !IsSpace(s[i..j][|s[i..j]| - 1])
    ensures s[i..j] == [] <==> AllSpace(s)
  {
    assert s[j..] == s[j..|s|];
    if j < |s| {
      assert s[j..|s|][0] == s[j];
    }
    if i == j {
      forall k | 0 <= k < |s|
        ensures IsSpace(s[k])
      {
        assert s[k] == s[..i][k];
      }
    } else {
      assert !IsSpace(s[i]);
    }
  }

  /** Stripping twice is stripping once. */
  lemma StripIdempotent(s: string)
    ensures Strip(Strip(s)) == Strip(s)
  {
    var r := Strip(s);
    var i := LeadingSpaces(r);
    assert i == 0;
    var j := TrailingStart(r, 0, |r|);
    assert j == |r|;
  }

  /** ASCII case folding of one character. */
  function LowerChar(c: char): char {
    if 'A' <= c <= 'Z' then (c as int + 32) as char else c
  }

  /** Python's `str.lower()`, restricted to ASCII letters: no ASCII capital
      is left. */
  function Lower(s: string): (r: string)
    ensures |r| == |s|
    ensures forall i :: 0 <= i < |r| ==> !('A' <= r[i] <= 'Z')
  {
    if s == [] then [] else [LowerChar(s[0])] + Lower(s[1..])
  }

  /** Lower-casing folds every character on its own. */
  lemma {:induction false} LowerFolds(s: string)
    ensures forall i :: 0 <= i < |s| ==> Lower(s)[i] == LowerChar(s[i])
  {
    if s != [] {
      LowerFolds(s[1..]);
      assert forall i :: 1 <= i < |s| ==> Lower(s)[i] == Lower(s[1..])[i - 1];
    }
  }

  /** Text without ASCII capitals is its own lower case. */
  lemma LowerKeepsSmall(s: string)
    requires forall i :: 0 <= i < |s| ==> !('A' <= s[i] <= 'Z')
    ensures Lower(s) == s
  {
    LowerFolds(s);
  }

  /** Position of the last occurrence of `c` in `s` (Python's `str.rfind`). */
  function LastIndexOf(s: string, c: char): (r: Option<nat>)
    ensures r.None? <==> c !in s
    ensures r.Some? ==> r.value < |s| && s[r.value] == c && c !in s[r.value + 1..]
  {
    if s == [] then None
    else if s[|s| - 1] == c then Some(|s| - 1)
    else
      var front := s[..|s| - 1];
      assert s == front + [s[|s| - 1]];
      var r := LastIndexOf(front, c);
      if r.Some? then
        assert s[r.value + 1..] == front[r.value + 1..] + [s[|s| - 1]];
        r
      else r
  }

  /** `k` is the position of the last dot of `filename`. */
  predicate IsLastDot(filename: string, k: int) {
    0 <= k < |filename| && filename[k] == '.' && '.' !in filename[k + 1..]
  }

  /** A name has at most one last dot. */
  lemma LastDotUnique(filename: string, k: int, k': int)
    requires IsLastDot(filename, k) && IsLastDot(filename, k')
    ensures k == k'
  {
  }

  /** `allowed_file` (app/utils.py:10-13, and app.py:51-52 with the fixed set):
      the name must contain a dot, and the text after its LAST dot, lower-cased,
      must be one of the allowed extensions. */
  function AllowedFile(filename: string, allowed: set<string>): (r: bool)
    ensures r <==> exists k :: IsLastDot(filename, k) && Lower(filename[k + 1..]) in allowed
    ensures '.' !in filename ==> !r
    ensures allowed == {} ==> !r
  {
    match LastIndexOf(filename, '.')
    case None => false
    case Some(k) =>
      assert IsLastDot(filename, k);
      assert forall k' :: IsLastDot(filename, k') ==> k' == k by {
        forall k' | IsLastDot(filename, k')
          ensures k' == k
        {
          LastDotUnique(filename, k, k');
        }
      }
      Lower(filename[k + 1..]) in allowed
  }

  /** Only the extension after the last dot decides, case-insensitively. */
  lemma AllowedByLastExtension(stem: string, ext: string, allowed: set<string>)
    requires '.' !in ext
    ensures AllowedFile(stem + "." + ext, allowed) <==> Lower(ext) in allowed
  {
    var f := stem + "." + ext;
    var k := |stem|;
    assert f[k + 1..] == ext;
    assert IsLastDot(f, k);
    forall k' | IsLastDot(f, k')
      ensures k' == k
    {
      LastDotUnique(f, k, k');
    }
  }

  /** Upper-case extensions are accepted: `a.PNG`. */
  lemma UpperCaseExtensionAccepted()
    ensures AllowedFile("a.PNG", ImageExtensions)
  {
    AllowedByLastExtension("a", "PNG", ImageExtensions);
    assert "a" + "." + "PNG" == "a.PNG";
    assert Lower("PNG") == "png";
  }

  /** Only the last extension counts: `a.png.exe` is rejected. */
  lemma DoubleExtensionRejected()
    ensures !AllowedFile("a.png.exe", ImageExtensions)
  {
    var ext := "exe";
    LowerKeepsSmall(ext);
    assert Lower(ext) !in ImageExtensions by {
      assert Lower(ext)[0] == 'e' && |Lower(ext)| == 3;
    }
    AllowedByLastExtension("a.png", ext, ImageExtensions);
    assert "a.png" + "." + ext == "a.png.exe";
  }

  /** A trailing dot leaves an empty extension: `x.` is rejected. */
  lemma TrailingDotRejected()
    ensures !AllowedFile("x.", ImageExtensions)
  {
    AllowedByLastExtension("x", "", ImageExtensions);
    assert "x" + "." + "" == "x.";
  }

  /** The replacement `nl2br` writes for one character. */
  function BreakFor(c: char): string {
    if c == '\n' then "<br>" else [c]
  }

  /** `str.replace('\n', '<br>')` (app/utils.py:21). */
  function ReplaceNewlines(s: string): (r: string)
    ensures forall i :: 0 <= i < |r| ==> r[i] != '\n'
    ensures |r| == |s| + 3 * multiset(s)['\n']
    ensures '\n' !in s ==> r == s
    decreases |s|
  {
    if s == [] then []
    else
      var rest := ReplaceNewlines(s[1..]);
      ConsBreak(s, rest);
      BreakFor(s[0]) + rest
  }

  /** One more character in front keeps the filter's contract. */
  lemma ConsBreak(s: string, rest: string)
    requires s != []
    requires forall i :: 0 <= i < |rest| ==> rest[i] != '\n'
    requires |rest| == |s| - 1 + 3 * multiset(s[1..])['\n']
    requires '\n' !in s[1..] ==> rest == s[1..]
    ensures var r := BreakFor(s[0]) + rest;
      && (forall i :: 0 <= i < |r| ==> r[i] != '\n')
      && |r| == |s| + 3 * multiset(s)['\n']
      && ('\n' !in s ==> r == s)
  {
    assert s == [s[0]] + s[1..];
    assert multiset(s) == multiset([s[0]]) + multiset(s[1..]);
    var r := BreakFor(s[0]) + rest;
    forall i | 0 <= i < |r|
      ensures r[i] != '\n'
    {
      if i >= |BreakFor(s[0])| {
        assert r[i] == rest[i - |BreakFor(s[0])|];
      }
    }
  }

  /** The `nl2br` Jinja filter (app/utils.py:16-22): `None` renders as the
      empty string, any other text has each newline replaced by `<br>`. */
  function Nl2Br(s: Option<string>): (r: string)
    ensures s.None? ==> r == ""
    ensures s.Some? ==> |r| == |s.value| + 3 * multiset(s.value)['\n'] && '\n' !in r
  {
    match s
    case None => ""
    case Some(t) => ReplaceNewlines(t)
  }

  /** Replacement works piecewise: the filter of a concatenation is the
      concatenation of the filtered pieces. */
  lemma {:induction false} ReplaceNewlinesConcat(a: string, b: string)
    ensures ReplaceNewlines(a + b) == ReplaceNewlines(a) + ReplaceNewlines(b)
    decreases |a|
  {
    if a != [] {
      assert (a + b)[1..] == a[1..] + b;
      ReplaceNewlinesConcat(a[1..], b);
    } else {
      assert a + b == b;
    }
  }

  /** Turns every `<br>` back into a newline. */
  function RestoreNewlines(r: string): string
    decreases |r|
  {
    if r == [] then []
    else if |r| >= 4 && r[..4] == "<br>" then "\n" + RestoreNewlines(r[4..])
    else [r[0]] + RestoreNewlines(r[1..])
  }

  /** Restoring undoes the replacement of one character other than `<`. */
  lemma RestoreOne(c: char, t: string)
    requires c != '<'
    ensures RestoreNewlines(BreakFor(c) + t) == [c] + RestoreNewlines(t)
  {
    var r := BreakFor(c) + t;
    if c == '\n' {
      assert r[..4] == "<br>";
      assert r[4..] == t;
    } else {
      assert r[0] == c;
      assert r[1..] == t;
    }
  }

  /** For text without `<`, the filter loses nothing: its output determines its input. */
  lemma {:induction false} RestoreAfterReplace(s: string)
    requires '<' !in s
    ensures RestoreNewlines(ReplaceNewlines(s)) == s
    decreases |s|
  {
    if s != [] {
      assert s == [s[0]] + s[1..];
      RestoreAfterReplace(s[1..]);
      RestoreOne(s[0], ReplaceNewlines(s[1..]));
    }
  }

  /** `os.path.basename` on POSIX: the text after the last `/`. */
  function Basename(path: string): (r: string)
    ensures '/' !in r
    ensures |r| <= |path| && r == path[|path| - |r|..]
    ensures |r| < |path| ==> path[|path| - |r| - 1] == '/'
  {
    match LastIndexOf(path, '/')
    case None => path
    case Some(k) => path[k + 1..]
  }

  /** The stored reference of an uploaded file: `os.path.join('uploads', name)`
      with backslashes turned into slashes (app/admin/routes.py:282, 343). */
  function UploadUrl(storedName: string): (r: string)
    requires '/' !in storedName && '\\' !in storedName
    ensures |r| == 8 + |storedName| && r[..8] == "uploads/" && r[8..] == storedName && '\\' !in r
    ensures forall i :: 0 <= i < |r| ==> (r[i] == '/' <==> i == 7)
  {
    "uploads/" + storedName
  }

  /** Deleting by `basename(image_url)` finds the file that was stored. */
  lemma BasenameOfUploadUrl(storedName: string)
    requires '/' !in storedName && '\\' !in storedName
    ensures Basename(UploadUrl(storedName)) == storedName
  {
    var url := UploadUrl(storedName);
    assert url[7] == '/';
    assert url[8..] == storedName;
    assert '/' !in url[8..];
  }
}
